=== FILE: README.md ===
# SEO editor agent — a Dafny model

This project models the SEO editor of a blog-writing team: the class
`SEOEditorAgent` in `seo_editor_agent.py`. Given a content record and a list
of target keywords, the agent does several things:

- it rewrites the title and the meta description so that they carry the
  primary keyword;
- it measures the whole-word density of the first five keywords and
  classifies each as under-optimized, optimal or over-optimized;
- it suggests internal and external links;
- it grades readability from average sentence length, average paragraph
  length and the share of transition words;
- it scores the page out of 100 on five components and turns the score into
  a letter grade;
- it runs a four-item technical checklist and predicts search performance;
- it caches the combined result, which a later call turns into a report.
  Until something is cached, that call returns a fixed sentinel text.

Module layout, one module per concern of the class:

| module | file | models |
|---|---|---|
| `Text` | text.dfy | the Python string built-ins the agent uses (`lower`, `in`, `strip`, `split()`, `split(sep)`, `re.split(r'[.!?]+', …)`, `count`, `[:n]`, `str(n)`) |
| `Dict` | dict.dfy | a `dict` as its items in insertion order |
| `WordMatch` | word_match.dfy | `len(re.findall(rf'\b{kw}\b', text))` |
| `Content` | content.dfy | `content_data` and `research_data` |
| `FieldOptimizer` | field_optimizer.dfy | `_optimize_title`, `_optimize_meta_description` |
| `KeywordDensity` | keyword_density.dfy | `_optimize_keyword_density`, `_generate_keyword_suggestions` |
| `Readability` | readability.dfy | `_improve_readability`, `_calculate_readability_score` |
| `SeoScoring` | seo_scoring.dfy | `_calculate_seo_score`, `_get_seo_grade` |
| `TechnicalSeo` | technical_seo.dfy | `_check_technical_seo` |
| `Performance` | performance.dfy | `_predict_performance` |
| `Agent` | agent.dfy | the links, `_apply_all_optimizations`, `optimize_content`, `generate_optimization_report`, and the class with its cache |

Where the source builds a list or a dict step by step, the model does the
same with a `method` and its loop or its chain of `if`s. Each such method is
proved equal to a specification function, and the properties are proved as
lemmas about that function. The agent itself is a `class` whose one field,
`optimizedContent`, is the cache.

Python's floats become exact reals ("## Left out" says where the two can
disagree), and the `dict` results become
datatypes whose fields carry the same names.

## Model

| member | source | states |
|---|---|---|
| Text.IsSpace | seo_editor_agent.py:78 | `str.isspace` on one character, the test `strip()` and `split()` use; `LStripSplit`, `RStripSplit`, `Words` and `WordsEmptyIffBlank` state what those operations do with it |
| Text.Lower | seo_editor_agent.py:62 | `str.lower` keeps the length and lower-cases each ASCII letter. A lower-cased character is whitespace exactly when the original was. |
| Text.Take | seo_editor_agent.py:62 | `s[:n]` is a prefix of `s` of length `min(len(s), n)` |
| Text.Contains | seo_editor_agent.py:62 | `needle in hay`, by scanning the start positions; `ContainsAt` and `ContainsWitness` show it holds exactly when the needle sits at some position |
| Text.AnyIn | seo_editor_agent.py:62 | `any(n in hay for n in needles)` holds exactly when some needle occurs in the haystack |
| Text.ContainsWitness | seo_editor_agent.py:62 | an `in` test that succeeds has a position where the needle sits |
| Text.ContainsAt | seo_editor_agent.py:62 | a needle sitting at some position makes `in` succeed |
| Text.NoRoomNoContains | seo_editor_agent.py:62 | a needle longer than the haystack is never `in` it |
| Text.MissingFirstCharNoContains | seo_editor_agent.py:62 | a needle whose first character is absent from the haystack is not `in` it |
| Text.ContainsLowerOf | seo_editor_agent.py:62 | after lower-casing, a string still contains each of its pieces |
| Text.LowerAll | seo_editor_agent.py:62 | lower-cases every keyword, one for one |
| Text.FirstIndex | seo_editor_agent.py:77 | `split(":", 1)` cuts at a colon with no colon before it |
| Text.LStrip | seo_editor_agent.py:78 | `s.lstrip()`; `LStripSplit` shows it removes exactly the longest whitespace prefix |
| Text.RStrip | seo_editor_agent.py:78 | `s.rstrip()`; `RStripSplit` shows it removes exactly the longest whitespace suffix |
| Text.Strip | seo_editor_agent.py:78 | `s.strip()` as `rstrip` after `lstrip`; `StripKeepsTrimmed`, `StripKeepsInfix` and `StripEmptyIffBlank` state what it keeps |
| Text.StripKeepsTrimmed | seo_editor_agent.py:78 | `strip()` leaves a string alone when it neither starts nor ends with whitespace |
| Text.LStripSplit | seo_editor_agent.py:78 | `lstrip()` removes exactly the longest whitespace prefix |
| Text.RStripSplit | seo_editor_agent.py:78 | `rstrip()` removes exactly the longest whitespace suffix |
| Text.RStripKeepsPrefix | seo_editor_agent.py:78 | `rstrip()` never cuts into a prefix that ends in a non-space |
| Text.StripKeepsInfix | seo_editor_agent.py:78 | a word that starts after a non-space and ends in a non-space survives `strip()` |
| Text.TotalWords | seo_editor_agent.py:242-243 | `sum(len(x.split()) for x in pieces)`; `WordsOfJoin`, `TotalWordsStrippedNonBlank` and `Readability.ParagraphsHoldAllWords` state what it adds up |
| Text.TokenLength | seo_editor_agent.py:131 | the first word ends at the first whitespace character |
| Text.TokenLengthOfToken | seo_editor_agent.py:131 | a text with no whitespace is one token to its end |
| Text.TokenIsOneWord | seo_editor_agent.py:131 | a non-empty whitespace-free text splits into exactly itself; with `WordsAfterBlank` and `WordsAroundSpace` this fixes `split()` on every text |
| Text.Words | seo_editor_agent.py:131 | every item of `split()` is a non-empty run without whitespace; with `TokenIsOneWord`, `WordsAfterBlank` and `WordsAroundSpace` the items are exactly the maximal such runs |
| Text.WordsEmptyIffBlank | seo_editor_agent.py:131 | `split()` is empty exactly when the text is blank |
| Text.WordsAfterBlank | seo_editor_agent.py:239 | leading whitespace adds no words |
| Text.WordsAroundSpace | seo_editor_agent.py:239 | splitting on whitespace distributes over one whitespace character |
| Text.WordsAroundBlank | seo_editor_agent.py:236-239 | splitting on whitespace distributes over any blank separator such as `"\n\n"` |
| Text.WordsOfStrip | seo_editor_agent.py:234 | stripping a piece does not change its words |
| Text.StripEmptyIffBlank | seo_editor_agent.py:234 | `strip()` is empty exactly when the piece is blank, which is the filter `if s.strip()` |
| Text.SplitFrom | seo_editor_agent.py:236 | a separator scan always yields at least one piece |
| Text.SplitFromCount | seo_editor_agent.py:236 | the separator scan yields one piece more than the non-overlapping separator occurrences ahead of it |
| Text.SplitOn | seo_editor_agent.py:236 | `split('\n\n')` yields exactly `1 + text.count('\n\n')` pieces; `JoinSplit` shows joining them rebuilds the text |
| Text.JoinCons | seo_editor_agent.py:236 | joining puts the separator between the first piece and the rest |
| Text.JoinSplitFrom | seo_editor_agent.py:236 | joining the scanned pieces rebuilds the pending piece followed by the rest of the text |
| Text.JoinSplitAtSep | seo_editor_agent.py:236 | the same at a point where the text starts with the separator |
| Text.JoinSplit | seo_editor_agent.py:236 | `'\n\n'.join(text.split('\n\n')) == text`: paragraph splitting loses nothing |
| Text.WordsOfJoin | seo_editor_agent.py:236-239 | joining with a blank separator adds the pieces' word counts |
| Text.DropSentenceEnds | seo_editor_agent.py:233 | the result is a suffix of the text; everything dropped before it is `.`, `!` or `?`, and the result does not start with one, so exactly the whole leading run goes |
| Text.SplitSentencesFrom | seo_editor_agent.py:233 | the sentence scan yields at least one piece, none holding `.`, `!` or `?`; `ConcatSplitSentencesFrom` states what the pieces hold |
| Text.SplitSentences | seo_editor_agent.py:233 | `re.split(r'[.!?]+', s)` yields at least one piece, none holding `.`, `!` or `?`; `SplitSentencesRoundTrip` states what the pieces hold |
| Text.WithoutSentenceEnds | seo_editor_agent.py:233 | the characters other than `.`, `!` and `?`, in order: the reference the split is compared with |
| Text.Concat | seo_editor_agent.py:233 | `"".join(parts)`, used to put the split pieces back together |
| Text.RunStarts | seo_editor_agent.py:233 | the number of maximal runs of `.!?` in a text, counting a run at the front only when no run was in progress |
| Text.DropKeepsKept | seo_editor_agent.py:233 | dropping a leading run of `.!?` removes nothing that the filter keeps |
| Text.DropKeepsRunStarts | seo_editor_agent.py:233 | after a leading run is dropped, the rest holds exactly the remaining runs |
| Text.ConcatSplitSentencesFrom | seo_editor_agent.py:233 | the scan's pieces, joined, are the pending piece followed by the text without its `.!?`, and there is one piece more than there are runs |
| Text.SplitSentencesRoundTrip | seo_editor_agent.py:233 | `"".join(re.split(r'[.!?]+', s))` is `s` with every `.`, `!` and `?` removed, and the split yields one more piece than `s` has maximal runs of them: no character is lost or invented |
| Text.StrippedNonBlank | seo_editor_agent.py:234 | the kept pieces are non-empty and no more numerous than the raw pieces |
| Text.TotalWordsStrippedNonBlank | seo_editor_agent.py:234 | dropping blank pieces and stripping the others keeps the total word count |
| Text.CountOf | seo_editor_agent.py:351 | `s.count(pat)` counts non-overlapping occurrences from the left; `CountOfFits` and `CountOfPositiveIff` state its bounds and when it is positive |
| Text.CountOfFits | seo_editor_agent.py:351 | `count("##")` occurrences do not overlap: count times 2 is at most the length |
| Text.CountOfPositiveIff | seo_editor_agent.py:351-354 | `count(pat) >= 1` exactly when `pat in s` |
| Text.DigitChar | seo_editor_agent.py:411 | a digit below ten renders as a character between `'0'` and `'9'` |
| Text.NatToString | seo_editor_agent.py:411 | `str(n)` is a non-empty string of decimal digits |
| Text.ParseNatToString | seo_editor_agent.py:411 | `int(str(n)) == n` |
| Dict.Keys | seo_editor_agent.py:149 | the keys of a dict, one per item, in order |
| Dict.IndexOf | seo_editor_agent.py:149 | the position holding a key that is present |
| Dict.Put | seo_editor_agent.py:149 | `d[k] = v` keeps the keys distinct. A present key keeps its place and takes the new value. A new key goes last. No other item changes. |
| Dict.Dedup | seo_editor_agent.py:134-149 | the keys a loop of assignments leaves: every element of the input, each once, and nothing else |
| WordMatch.IsWordChar | seo_editor_agent.py:136 | Python's `\w` on ASCII: a letter, a digit or `_`; `MatchIsWhole` and `MatchesAreWholeWords` use it to show matches stand alone |
| WordMatch.IsBoundary | seo_editor_agent.py:136 | `\b` at a position: a word character on exactly one side; `MatchIsWhole` derives that no word character touches a match of a word-bounded keyword |
| WordMatch.MatchesAt | seo_editor_agent.py:136 | `\b<kw>\b` matches at a position: the characters spell the keyword and both ends are boundaries; `SameAtIsSlice` ties the comparison to the slice test, and `MatchesFrom`/`MatchesFromComplete` show the scan reports exactly these positions |
| WordMatch.SameAtIsSlice | seo_editor_agent.py:136 | the character-by-character comparison used by `MatchesAt` is the slice test `t[i:i + len(pat)] == pat` |
| WordMatch.MatchesFrom | seo_editor_agent.py:136 | every reported position lies at or after the scan start and matches `\bkw\b`, and reported matches do not overlap; `MatchesFromComplete` shows no match is missed |
| WordMatch.MatchesFromAtMatch | seo_editor_agent.py:136 | a match at the scan position is reported and the scan resumes after it |
| WordMatch.MatchesFromNoMatch | seo_editor_agent.py:136 | without a match at the scan position the scan moves on by one |
| WordMatch.MatchesFromComplete | seo_editor_agent.py:136 | every position at or after the scan start where `\bkw\b` matches is reported, or lies inside the stretch a reported match consumed |
| WordMatch.WholeWordCount | seo_editor_agent.py:136 | the length of the `findall` result; `WholeWordCountPositiveIff` states when it is positive |
| WordMatch.WholeWordCountPositiveIff | seo_editor_agent.py:136 | the count is positive exactly when the lower-cased keyword matches as a whole word somewhere in the lower-cased text |
| WordMatch.WholeWordImpliesContains | seo_editor_agent.py:136 | a whole-word match is also a case-insensitive substring hit |
| WordMatch.MatchesAreWholeWords | seo_editor_agent.py:136 | each counted match of a keyword with word characters at both ends has no word character beside it |
| WordMatch.MatchIsWhole | seo_editor_agent.py:136 | a match at one position has no word character beside it |
| WordMatch.SkipNonMatches | seo_editor_agent.py:136 | the `findall` scan passes over positions where nothing matches |
| WordMatch.CatInCategoryIsNotAWord | seo_editor_agent.py:136 | "cat" is a substring of "Category" but is counted 0 times |
| WordMatch.CountsIgnoreCase | seo_editor_agent.py:136 | "Seo" is counted twice in "SEO, and seo." |
| FieldOptimizer.PrimaryKeyword | seo_editor_agent.py:59-60 | `keywords[0] if keywords else ""`; `TitleOptimizationContract` and `MetaOptimizationContract` show it is the keyword each rewrite inserts |
| FieldOptimizer.NeedsKeyword | seo_editor_agent.py:62-65 | a rewrite happens exactly when no keyword is present and there is a primary keyword; `OptimizedTitle`, `OptimizedMeta`, `TitleSuggestionsShape` and `MetaSuggestionsShape` state that it decides the rewrite and the keyword hint |
| FieldOptimizer.KeywordPresent | seo_editor_agent.py:62 | present exactly when one of the first two keywords occurs, ignoring case |
| FieldOptimizer.PresentWhenPrimaryContained | seo_editor_agent.py:62 | a field holding the primary keyword counts as having the keyword |
| FieldOptimizer.IncludeInTitle | seo_editor_agent.py:66 | the keyword hint `"Include primary keyword '<kw>' in title"`; `TitleSuggestionsShape` states it comes first exactly when the keyword is needed |
| FieldOptimizer.ShortenTitle | seo_editor_agent.py:68-69 | the hint for a title over 60 characters, with its length written by `NatToString`; `TitleSuggestionsShape` states it comes last exactly then |
| FieldOptimizer.LengthenTitle | seo_editor_agent.py:70-71 | the hint for a title under 30 characters; `TitleSuggestionsShape` states it comes last exactly then |
| FieldOptimizer.InsertKeywordInTitle | seo_editor_agent.py:75-80 | the two rewrites; `InsertedTitleContainsKeyword` and `InsertAtColon` state that the keyword lands in the title and where |
| FieldOptimizer.InsertedTitleContainsKeyword | seo_editor_agent.py:75-80 | both forms of the title rewrite hold the keyword, unless the keyword ends in whitespace |
| FieldOptimizer.InsertedAfterColon | seo_editor_agent.py:76-78 | the colon form of the rewrite holds the keyword |
| FieldOptimizer.OptimizedTitle | seo_editor_agent.py:73-80 | the title is unchanged unless the keyword is absent and there is a primary keyword. Without a colon, the rewrite is `"<keyword>: <title>"`. |
| FieldOptimizer.GrowthTitleExample | seo_editor_agent.py:73-80 | "Growth" with ["growth hacking"] becomes "growth hacking: Growth" |
| FieldOptimizer.InsertAtColon | seo_editor_agent.py:76-78 | the keyword goes after the first colon |
| FieldOptimizer.TipsLacksWeb | seo_editor_agent.py:62 | "web" is not present in "Tips: Go" |
| FieldOptimizer.TipsWithWeb | seo_editor_agent.py:76-78 | inserting "web" into "Tips: Go" gives "Tips: web  Go" |
| FieldOptimizer.ColonTitleExample | seo_editor_agent.py:73-80 | "Tips: Go" with ["web"] becomes "Tips: web  Go". The space kept after the colon doubles the gap. |
| FieldOptimizer.OptimizedTitleIdempotent | seo_editor_agent.py:73-80 | optimizing an optimized title changes nothing more |
| FieldOptimizer.TitleSuggestions | seo_editor_agent.py:64-71 | the title hints in the order they are appended; `TitleSuggestionsShape` states which appear |
| FieldOptimizer.TitleSuggestionsShape | seo_editor_agent.py:64-71 | one suggestion for a missing keyword, and it comes first. One more when the length is outside 30..60: "shorten" above 60, "more descriptive" below 30, and it comes last. No others. |
| FieldOptimizer.TitleOptimization | seo_editor_agent.py:82-88 | the result keeps the original title, and its length is that of the optimized title |
| FieldOptimizer.TitleOptimizationContract | seo_editor_agent.py:73-88 | the title is untouched when the keyword is present or there is none. Otherwise the optimized title holds the primary keyword, provided that keyword does not end in whitespace ("Tips:" with ["web "] becomes "Tips: web", which lacks "web "). |
| FieldOptimizer.OptimizeTitle | seo_editor_agent.py:55-88 | the step-by-step construction yields exactly the specified result |
| FieldOptimizer.HasActionWords | seo_editor_agent.py:107-108 | true exactly when one of the seven action words occurs in the lower-cased text |
| FieldOptimizer.InsertKeywordInMeta | seo_editor_agent.py:113-116 | `"<keyword>: <meta>"` when that fits in 160 characters; otherwise `meta[:140] + "... Learn more about " + keyword + "!"`, which is then itself longer than 160 characters |
| FieldOptimizer.InsertedMetaContainsKeyword | seo_editor_agent.py:113-116 | both forms of the meta rewrite hold the keyword |
| FieldOptimizer.OptimizedMeta | seo_editor_agent.py:112-116 | the meta description is unchanged unless the keyword is absent and there is a primary keyword |
| FieldOptimizer.OptimizedMetaIdempotent | seo_editor_agent.py:112-116 | optimizing an optimized meta description changes nothing more |
| FieldOptimizer.IncludeInMeta | seo_editor_agent.py:99 | the keyword hint `"Include primary keyword '<kw>' in meta description"`; `MetaSuggestionsShape` states it comes first exactly when the keyword is needed |
| FieldOptimizer.TrimMeta | seo_editor_agent.py:101-102 | the hint for a meta description over 160 characters, with its length; `MetaSuggestionsShape` counts it among the length hints |
| FieldOptimizer.MetaSuggestions | seo_editor_agent.py:97-110 | the meta hints in the order they are appended; `MetaSuggestionsShape` states which appear |
| FieldOptimizer.MetaSuggestionsShape | seo_editor_agent.py:97-110 | the count is 1 for a missing keyword, plus 1 for a length outside 120..160, plus 1 without action words. The keyword hint comes first and the action-word hint last. The action-word hint appears only when no action word occurs. |
| FieldOptimizer.MetaOptimizationContract | seo_editor_agent.py:112-125 | the meta description is untouched when the keyword is present or there is none. Otherwise the optimized text holds the primary keyword. |
| FieldOptimizer.MetaOptimization | seo_editor_agent.py:118-125 | the result keeps the original text, and its length is that of the optimized text |
| FieldOptimizer.OptimizeMetaDescription | seo_editor_agent.py:90-125 | the step-by-step construction yields exactly the specified result |
| KeywordDensity.WordCount | seo_editor_agent.py:131 | `len(content.split())`; `AnalysisOfShape` states every density is taken against it, and `TokenIsOneWord` with `WordsAroundSpace` fixes what it counts |
| KeywordDensity.DensityPercent | seo_editor_agent.py:137 | the density is non-negative, and zero exactly when there are no matches or no words |
| KeywordDensity.Classify | seo_editor_agent.py:143-147 | under-optimized exactly below the range. Over-optimized exactly above it, and optimal exactly inside it, for a well-formed range. |
| KeywordDensity.RangeFor | seo_editor_agent.py:140-141 | the range (1, 3) for a keyword equal to `keywords[0]` and (0.5, 1) otherwise; `AnalysisOfShape` states that every entry carries this range |
| KeywordDensity.AnalyzeKeyword | seo_editor_agent.py:136-153 | the dict entry of one keyword: whole-word count, density, status and range; `AnalyzeAllShape` and `AnalysisOfShape` show each entry of the dict is exactly this |
| KeywordDensity.AnalyzeAll | seo_editor_agent.py:132-154 | the dict built by the loop never holds a key twice |
| KeywordDensity.AnalyzeAllStep | seo_editor_agent.py:149-154 | one more loop iteration assigns the next keyword's entry into the dict |
| KeywordDensity.AnalyzeAllShape | seo_editor_agent.py:134-154 | the dict's keys are the visited keywords without repeats, and each entry is that keyword's own analysis |
| KeywordDensity.AnalysisOf | seo_editor_agent.py:127-154 | the dict of entries over `keywords[:5]`; `AnalysisOfShape` states its keys and entries |
| KeywordDensity.AnalysisOfShape | seo_editor_agent.py:127-154 | the analysis covers `keywords[:5]`, once each in first-occurrence order, at most five entries. Each entry holds the whole-word count, the density against `len(content.split())`, the primary range (1, 3) for a keyword equal to `keywords[0]` and (0.5, 1) otherwise, and the matching status. |
| KeywordDensity.AnalysisCoversKeywords | seo_editor_agent.py:134 | each of the first five keywords has an entry |
| KeywordDensity.BlankTextIsUnderOptimized | seo_editor_agent.py:131-147 | on a blank text every keyword has density 0 and is under-optimized |
| KeywordDensity.SuggestionFor | seo_editor_agent.py:167-171 | no suggestion for an optimal entry. Otherwise exactly one, for the same keyword, density and range: "increase" when under-optimized, "reduce" when over-optimized. |
| KeywordDensity.KeywordSuggestions | seo_editor_agent.py:162-173 | at most one suggestion per analysed keyword |
| KeywordDensity.KeywordSuggestionsAppend | seo_editor_agent.py:167-171 | suggestions follow the dict's order entry by entry |
| KeywordDensity.NoSuggestionsIffAllOptimal | seo_editor_agent.py:166-173 | there are no suggestions exactly when every entry is optimal |
| KeywordDensity.GenerateKeywordSuggestions | seo_editor_agent.py:162-173 | the loop yields exactly the specified suggestions |
| KeywordDensity.DensityReportOf | seo_editor_agent.py:156-160 | the word total, the analysis and its suggestions; `OptimizeKeywordDensity` is proved to build exactly this |
| KeywordDensity.OptimizeKeywordDensity | seo_editor_agent.py:127-160 | the loop over `keywords[:5]` yields exactly the specified word total, dict and suggestions |
| Readability.Sentences | seo_editor_agent.py:233-234 | the stripped non-blank pieces of the sentence split; `SentencesWithoutEnds`, `StrippedPiecesHaveWords` and `BlankTextHasNoPieces` state what they hold |
| Readability.Paragraphs | seo_editor_agent.py:236-237 | the stripped non-blank pieces of `split('\n\n')`; `ParagraphsHoldAllWords` states they hold every word |
| Readability.AverageWords | seo_editor_agent.py:242-243 | averages are non-negative, and 0 when there are no pieces |
| Readability.ParagraphsHoldAllWords | seo_editor_agent.py:236-239 | the kept paragraphs together hold exactly the words of the text |
| Readability.StrippedPiecesHaveWords | seo_editor_agent.py:234-243 | the kept pieces hold at least as many words as there are pieces: each has at least one |
| Readability.SplitSentencesFromNoEnd | seo_editor_agent.py:233 | a text without `.`, `!` or `?` is not split further |
| Readability.SentencesWithoutEnds | seo_editor_agent.py:233-234 | a text without `.`, `!` or `?` is one stripped sentence, or none when it is blank |
| Readability.BlankTextHasNoPieces | seo_editor_agent.py:233-252 | a blank text has no sentences and no paragraphs, so both averages are 0, and its transition ratio is 0 |
| Readability.TrimTrailingPunctuation | seo_editor_agent.py:251 | `rstrip('.,!?')` gives a prefix that does not end in one of those characters, and everything it removed is one of them |
| Readability.IsTransition | seo_editor_agent.py:251 | `word.lower().rstrip('.,!?') in transition_words`; `OnlySingleWordTransitionsMatch` shows only the one-word transitions can match a `split()` word |
| Readability.OnlySingleWordTransitionsMatch | seo_editor_agent.py:246-251 | a word of `split()` can only match a one-word transition |
| Readability.TransitionCount | seo_editor_agent.py:251 | at most one transition per word |
| Readability.TransitionRatio | seo_editor_agent.py:252 | the ratio lies between 0 and 100 percent, and is 0 when there are no words |
| Readability.LevelOf | seo_editor_agent.py:295-302 | excellent from 80, good in [60, 80), fair in [40, 60), needs improvement below 40 |
| Readability.ReadabilityPoints | seo_editor_agent.py:281-293 | the points never exceed 120 (100 plus the capped transition bonus), and stay at 100 or more while sentences average at most 20 words and paragraphs at most 150 |
| Readability.CalculateReadabilityScore | seo_editor_agent.py:275-302 | sentences of at most 20 words and paragraphs of at most 150 always score excellent; `LevelOf` and `ScoreMonotone` state the bands and the monotonicity |
| Readability.ThirtyWordSentencesAreStillExcellent | seo_editor_agent.py:281-298 | 30-word sentences score exactly 80 points, still excellent. 31-word sentences drop to good. |
| Readability.ScoreMonotone | seo_editor_agent.py:281-302 | shorter sentences, shorter paragraphs or more transitions never lower the points or the level |
| Readability.ReadabilitySuggestions | seo_editor_agent.py:259-265 | the three hints in the order they are appended; `SuggestionsFireIndependently` states when each appears |
| Readability.SuggestionsFireIndependently | seo_editor_agent.py:259-265 | each hint appears exactly when its own threshold is crossed: sentences over 20, paragraphs over 150, transitions under 1 |
| Readability.ReadabilityOf | seo_editor_agent.py:229-273 | both averages are non-negative and the transition ratio lies in [0, 100] |
| Readability.BlankTextNeedsTransitions | seo_editor_agent.py:229-273 | a blank text is told to add transitions and still scores excellent |
| Readability.ImproveReadability | seo_editor_agent.py:229-273 | the step-by-step construction yields exactly the specified report |
| SeoScoring.AnyKeywordIn | seo_editor_agent.py:320 | true exactly when some keyword of the whole list occurs, ignoring case |
| SeoScoring.TitlePoints | seo_editor_agent.py:316-321 | 25 exactly when one of the first two keywords is in the title, 15 exactly when only a later one is, 0 exactly when none is |
| SeoScoring.MetaPoints | seo_editor_agent.py:323-328 | 20 exactly for a keyword within 120..160 characters, 10 exactly for a keyword outside that band, 0 exactly without a keyword |
| SeoScoring.ContentLengthPoints | seo_editor_agent.py:330-337 | 20 exactly in [1500, 3000], 15 in [1000, 1500), 10 above 3000, 0 below 1000 |
| SeoScoring.PrimaryDensity | seo_editor_agent.py:341-344 | the primary keyword's whole-word density against the writer's word count; `KeywordUsageAgreesWithAnalysis` relates it to the density analysis |
| SeoScoring.KeywordUsagePoints | seo_editor_agent.py:339-348 | always 0, 15 or 25, and 0 without a primary keyword |
| SeoScoring.HeadingsPoints | seo_editor_agent.py:350-354 | 10 exactly for three or more `##`, 5 for one or two, 0 exactly when `##` does not occur |
| SeoScoring.Total | seo_editor_agent.py:356 | `sum(score_components.values())`; `SeoScoreOf` states it is the total score and at most 100 |
| SeoScoring.GradeOf | seo_editor_agent.py:366-379 | A from 90, B in [80, 90), C in [70, 80), D in [60, 70), F below 60 |
| SeoScoring.SeoScoreOf | seo_editor_agent.py:356-364 | the total is the sum of the components and at most the maximum of 100. The percentage equals the total, and the grade is the total's grade. |
| SeoScoring.ScoreTitle | seo_editor_agent.py:316-321 | the branch yields exactly the specified title points |
| SeoScoring.ScoreMeta | seo_editor_agent.py:323-328 | the branch yields exactly the specified meta points |
| SeoScoring.ScoreContentLength | seo_editor_agent.py:330-337 | the branch yields exactly the specified length points |
| SeoScoring.ScoreKeywordUsage | seo_editor_agent.py:339-348 | the branch yields exactly the specified usage points |
| SeoScoring.ScoreHeadings | seo_editor_agent.py:350-354 | the branch yields exactly the specified heading points |
| SeoScoring.CalculateSeoScore | seo_editor_agent.py:304-364 | the dict filled component by component yields exactly the specified score |
| SeoScoring.ComponentsOf | seo_editor_agent.py:308-354 | the five component points; `ComponentsBounded` states the values each can take |
| SeoScoring.ComponentsBounded | seo_editor_agent.py:316-354 | each component takes only its listed values: title 0/15/25, meta 0/10/20, usage 0/15/25, length 0/10/15/20, headings 0/5/10 |
| SeoScoring.OptimizedTitleEarnsFullPoints | seo_editor_agent.py:73-80 | for a non-empty primary keyword that does not end in whitespace, the optimized title always earns the full 25 title points (lines 316-319) |
| SeoScoring.OptimizedMetaEarnsKeywordPoints | seo_editor_agent.py:112-116 | an optimized meta description earns at least 10 points (lines 323-328), and 20 when the prefixed form lands in 120..160 |
| SeoScoring.KeywordUsageAgreesWithAnalysis | seo_editor_agent.py:339-348 | with the writer's word count equal to the text's, usage earns 25 exactly when the density analysis calls the primary keyword optimal (lines 134-147) |
| SeoScoring.DeeperHeadingsCount | seo_editor_agent.py:351-354 | `###` counts as one `##` and `####` as two |
| SeoScoring.BoundaryExamples | seo_editor_agent.py:330-379 | 3000 words earn 20 and 3001 earn 10. 1499 earn 15 and 999 earn 0. 90 is an A, 89 a B, 59 an F. |
| TechnicalSeo.CheckOf | seo_editor_agent.py:385-400 | one checklist entry, `pass` exactly when its condition holds, with the measured value; `CheckTechnicalSeo` states each entry's condition and value |
| TechnicalSeo.Checks | seo_editor_agent.py:385-404 | `checks.values()` in the order the dict lists them; `CheckTechnicalSeo` states there are four and `PassCount` counts the passes among them |
| TechnicalSeo.PassCount | seo_editor_agent.py:404 | at most one per check. Equal to the number of checks exactly when all pass, and 0 exactly when all fail. |
| TechnicalSeo.CheckTechnicalSeo | seo_editor_agent.py:381-412 | four checks, each with the measured value. Each passes exactly on its own condition: title 30..60, meta 120..160, at least 1000 words, at least two `##`. `passed` counts the passes, and `score` is `"passed/total"`. |
| TechnicalSeo.AllChecksPass | seo_editor_agent.py:385-405 | all four pass exactly when all four conditions hold |
| TechnicalSeo.ScoreText | seo_editor_agent.py:411 | `f"{passed}/{total}"`; `ScoreTextReadsBack` shows it carries both numbers |
| TechnicalSeo.ScoreTextReadsBack | seo_editor_agent.py:411 | the score text reads back as both counts: the first `/` separates them |
| TechnicalSeo.ChecklistAgreesWithScore | seo_editor_agent.py:385-402 | the content-length check passes exactly when the score gives at least 10 length points. 10 heading points imply the heading check passes, and that check passing implies at least 5. A meta in band with a keyword earns 20. |
| Performance.RankingPotential | seo_editor_agent.py:422 | high from 80, medium in [60, 80), low below 60 |
| Performance.TrafficEstimate | seo_editor_agent.py:423 | the traffic band picked from the percentage; `TrafficFollowsRanking` states it matches the ranking tier |
| Performance.TrafficFollowsRanking | seo_editor_agent.py:423 | the traffic band always matches the ranking tier |
| Performance.PredictPerformance | seo_editor_agent.py:414-428 | the ranking follows the SEO percentage and the traffic follows the ranking. Engagement is high exactly from 1500 words and never low. Sharing is high exactly for "how to" or "guide" in the title. |
| Performance.RankingFollowsGrade | seo_editor_agent.py:419-422 | high exactly for grade A or B, medium for C or D, low for F |
| Performance.EngagementFollowsLength | seo_editor_agent.py:424 | 20 length points imply high engagement, and high engagement implies 10 or 20 length points |
| Performance.Shareable | seo_editor_agent.py:425 | "how to" or "guide" in the lower-cased title; `PredictPerformance` makes sharing high exactly then |
| Performance.HowToTitleIsShareable | seo_editor_agent.py:425 | "How To Grow" counts as shareable: the test ignores case |
| Agent.SuggestInternalLinks | seo_editor_agent.py:175-201 | always three suggestions |
| Agent.InternalLinksIgnoreContent | seo_editor_agent.py:175-201 | the suggestions do not depend on the text |
| Agent.StatisticLink | seo_editor_agent.py:211-216 | the link for one statistic: the first 50 characters of the statistic plus `...`, its source, and the fixed link and purpose; `ExternalLinksShape` places these first and bounds their anchors |
| Agent.ExpertLink | seo_editor_agent.py:220-225 | the link for one expert opinion: `"{expert}, {title}"` with the fixed link, source and purpose; `ExternalLinksShape` places these after the statistic links |
| Agent.AllExternalLinks | seo_editor_agent.py:207-225 | the statistic links followed by the expert links, before the cap; `ExternalLinksShape` states their order and number |
| Agent.ExternalLinks | seo_editor_agent.py:203-227 | the first five of the statistic and expert links; `ExternalLinksShape` states their number, order and anchors |
| Agent.ExternalLinksShape | seo_editor_agent.py:203-227 | `min(#statistics + #experts, 5)` links: statistic links first in their order, then expert links in theirs. Each statistic anchor is at most 53 characters. |
| Agent.SuggestExternalLinks | seo_editor_agent.py:203-227 | the two loops followed by the cap yield exactly the specified links |
| Agent.EffectiveKeywords | seo_editor_agent.py:28-29 | target keywords when given and non-empty, the research keywords otherwise |
| Agent.ApplyAllOptimizations | seo_editor_agent.py:430-447 | the text comes back unchanged: the long-sentence suggestion is looked for but nothing is rewritten |
| Agent.Optimization | seo_editor_agent.py:21-53 | the combined result of `optimize_content`; `OptimizationShape` states how its parts relate to the input |
| Agent.OptimizationShape | seo_editor_agent.py:21-53 | the final content is the original text (lines 430-447) and the original record is kept. Both field results keep their originals. The density analysis runs on the effective keywords. The score is at most 100, the checklist has four items, and at most five external links appear. |
| Agent.EmptyTargetFallsBack | seo_editor_agent.py:28-29 | an empty keyword list behaves like no list, and no list behaves like passing the research keywords |
| Agent.ReportOf | seo_editor_agent.py:449-454 | the sentinel text exactly when nothing is cached |
| Agent.ReportOfOptimization | seo_editor_agent.py:456-477 | the report shows the cached percentage and grade and at most one title and one meta suggestion. It shows the checklist count out of 4, at most five keyword optimizations and three internal links. |
| Agent.SeoEditorAgent.constructor | seo_editor_agent.py:12-19 | a new agent has nothing cached |
| Agent.SeoEditorAgent.OptimizeContent | seo_editor_agent.py:21-53 | returns the specified combined result and caches it over any earlier one |
| Agent.SeoEditorAgent.GenerateOptimizationReport | seo_editor_agent.py:449-479 | the report of whatever is cached |
| Agent.AgentLifecycle | seo_editor_agent.py:449-479 | before any optimization the report is the sentinel. Optimizing twice gives the same result, and the report then shows its grade. |

## Left out

- The `print` at the start of `optimize_content` is console output and is not modelled.
- `readability_weights` is set in the constructor but never read, so the model has no such field.
- `export_optimized_content` writes a file (I/O) and is not part of this model; the rest of the repository (researcher, writer, coordinator, web front ends) is not part of this model either.
- Readability.CalculateReadabilityScore: the points are computed on exact reals, while Python computes them on floats, so at a band edge (seo_editor_agent.py:284-302) the two can disagree. Averages of 80/3 words per sentence and 490/3 per paragraph with no transitions give exactly 80 points here (excellent), while float arithmetic gives 79.99999999999999 (good).
- KeywordDensity.Classify: the density `(count / words) * 100` is an exact ratio here; Python's float can differ from it by a rounding error, which could move a density lying within one rounding step of 0.5, 1 or 3 across a band edge (seo_editor_agent.py:143-147).
- SeoScoring.KeywordUsagePoints: the same exact-ratio density decides the 25/15/0 bands, so the same rounding caveat applies at 0.5, 1, 3 and 4 (seo_editor_agent.py:339-348).
- `round(…, 1)` and `round(…, 2)` on densities, averages, ratios and the percentage are presentation only; the model keeps the exact reals.
- `str.lower`, `\w` and `\b` are modelled for ASCII only; non-ASCII letters are neither lower-cased nor treated as word characters.
- `str.isspace` is modelled on the ASCII and Unicode whitespace characters listed in `Text.IsSpace`.
- The suggestion and report texts that embed a float (`currently {density}%`, the report body) are modelled as datatypes holding the values, not as formatted strings.
- `dict.get` defaults for missing keys are not modelled: the content and research records always carry every field.
- Agent.SuggestInternalLinks: its contract states only the count; the three constant entries are in its body and `InternalLinksIgnoreContent` states that they do not depend on the text.
- KeywordDensity.KeywordSuggestions: its own contract states only the bound; what each entry contributes is stated by `SuggestionFor`, `KeywordSuggestionsAppend` and `NoSuggestionsIffAllOptimal`.
- SeoScoring.KeywordUsagePoints: its contract states the possible values; the link to the density classification is stated by `KeywordUsageAgreesWithAnalysis` under the word-count assumption, since the score uses the writer's `word_count` while the analysis counts the text's own words.
- FieldOptimizer.OptimizedTitleIdempotent: requires the primary keyword not to end in whitespace, since `strip()` may then remove part of it and the keyword test can fail again.
- TechnicalSeo.CheckTechnicalSeo: the `score` text is stated as `f"{passed}/{total}"`; `ScoreTextReadsBack` shows it carries both numbers.

Observations on the code as written, kept as they are in the model:

- The meta description's truncating rewrite (`meta[:140] + "... Learn more about " + kw + "!"`) only runs when the prefixed form is over 160 characters, and then its own length is always over 160 too (`FieldOptimizer.InsertKeywordInMeta`).
- The title's colon rewrite keeps the space that followed the colon, so it produces two spaces after the keyword (`FieldOptimizer.ColonTitleExample`).
- `content.count("##")` also counts the `##` inside `###` and deeper headings (`SeoScoring.DeeperHeadingsCount`).
- The phrase transitions ("for example", "in addition", …) can never match, because the text is split into single words first (`Readability.OnlySingleWordTransitionsMatch`).
- A repeat of `keywords[0]` later in the list is also given the primary range, because the test compares the keyword's text.
- 3000 words earn the 20 length points, not 10, because the inclusive `1500 <= word_count <= 3000` test comes first (`SeoScoring.BoundaryExamples`).

=== FILE: agent.dfy ===
/**
 * The SEO editor agent: `optimize_content` runs every analysis over one
 * content record and keyword list, and caches the combined result, which
 * `generate_optimization_report` reads back.
 */
module Agent {
  import opened Text
  import opened Content
  import opened FieldOptimizer
  import opened KeywordDensity
  import opened Readability
  import opened SeoScoring
  import opened TechnicalSeo
  import opened Performance

  datatype Option<T> = None | Some(value: T)

  // ---------------------------------------------------------------------
  // Internal links
  // ---------------------------------------------------------------------

  datatype InternalLink = InternalLink(anchorText: string, suggestedLink: string, position: string, reason: string)

  /** `_suggest_internal_links`: the same three suggestions whatever the text says. */
  function SuggestInternalLinks(content: string): (links: seq<InternalLink>)
    ensures |links| == 3
  {
    [ InternalLink("comprehensive guide", "/related-topic-guide", "introduction", "Provides additional value to readers"),
      InternalLink("best practices", "/best-practices-article", "main content", "Supports the main topic with detailed information"),
      InternalLink("case studies", "/case-studies", "conclusion", "Offers proof of concept and real examples") ]
  }

  /** The suggestions never depend on the text they are for. */
  lemma InternalLinksIgnoreContent(a: string, b: string)
    ensures SuggestInternalLinks(a) == SuggestInternalLinks(b)
  {
  }

  // ---------------------------------------------------------------------
  // External links
  // ---------------------------------------------------------------------

  const MaxExternalLinks := 5
  /** How much of a statistic's text becomes its anchor. */
  const AnchorLength := 50

  datatype ExternalLink = ExternalLink(anchorText: string, suggestedLink: string, source: string, purpose: string)

  function StatisticLink(s: Statistic): ExternalLink {
    ExternalLink(Take(s.stat, AnchorLength) + "...", "https://source-link.com", s.source, "Citation for credibility")
  }

  function ExpertLink(e: ExpertOpinion): ExternalLink {
    ExternalLink(e.expert + ", " + e.title, "https://expert-profile.com", "Expert Profile", "Authority and credibility")
  }

  /** One link per statistic, then one per expert opinion, before the cap. */
  function AllExternalLinks(research: ResearchData): seq<ExternalLink> {
    seq(|research.statistics|, i requires 0 <= i < |research.statistics| => StatisticLink(research.statistics[i]))
    + seq(|research.expertOpinions|, i requires 0 <= i < |research.expertOpinions| => ExpertLink(research.expertOpinions[i]))
  }

  /** `_suggest_external_links`: the first five of those links. */
  function ExternalLinks(research: ResearchData): seq<ExternalLink> {
    Take(AllExternalLinks(research), MaxExternalLinks)
  }

  /**
   * At most five links; statistics come first, expert opinions fill what is
   * left, and a statistic's anchor is at most 53 characters.
   */
  lemma ExternalLinksShape(research: ResearchData)
    ensures var links, ns := ExternalLinks(research), |research.statistics|;
            && |links| == Min(ns + |research.expertOpinions|, MaxExternalLinks)
            && (forall i :: 0 <= i < |links| && i < ns ==> links[i] == StatisticLink(research.statistics[i]))
            && (forall i :: ns <= i < |links| ==> links[i] == ExpertLink(research.expertOpinions[i - ns]))
            && (forall i :: 0 <= i < |links| && i < ns ==> |links[i].anchorText| <= AnchorLength + 3)
  {
    var links, all := ExternalLinks(research), AllExternalLinks(research);
    assert forall i :: 0 <= i < |links| ==> links[i] == all[i];
  }

  method SuggestExternalLinks(research: ResearchData) returns (links: seq<ExternalLink>)
    ensures links == ExternalLinks(research)
  {
    var stats, experts := research.statistics, research.expertOpinions;
    links := [];
    for i := 0 to |stats|
      invariant links == seq(i, k requires 0 <= k < i => StatisticLink(stats[k]))
    {
      links := links + [StatisticLink(stats[i])];
    }
    ghost var statLinks := links;
    for i := 0 to |experts|
      invariant links == statLinks + seq(i, k requires 0 <= k < i => ExpertLink(experts[k]))
    {
      links := links + [ExpertLink(experts[i])];
    }
    assert links == AllExternalLinks(research);
    links := Take(links, MaxExternalLinks);
  }

  // ---------------------------------------------------------------------
  // The combined result
  // ---------------------------------------------------------------------

  datatype OptimizationResult = OptimizationResult(
    originalContent: ContentRecord,
    seoOptimizedTitle: TitleResult,
    optimizedMetaDescription: MetaResult,
    keywordOptimizedContent: DensityReport,
    internalLinks: seq<InternalLink>,
    externalLinks: seq<ExternalLink>,
    readabilityImprovements: ReadabilityReport,
    seoScore: SeoScore,
    technicalSeo: TechnicalReport,
    performancePredictions: Predictions,
    finalContent: string)

  /** `target_keywords`, or the research keywords when it is None or empty. */
  function EffectiveKeywords(target: Option<seq<string>>, research: ResearchData): (ks: seq<string>)
    ensures target.Some? && target.value != [] ==> ks == target.value
    ensures target.None? || target.value == [] ==> ks == research.keywords
  {
    if target.None? || target.value == [] then research.keywords else target.value
  }

  /**
   * `_apply_all_optimizations`: the long-sentence suggestion is looked for
   * but nothing is rewritten, so the text comes back as it went in.
   */
  function ApplyAllOptimizations(original: ContentRecord, readability: ReadabilityReport): (r: string)
    ensures r == original.fullText
  {
    var text := original.fullText;
    if BreakLongSentences in readability.suggestions then text else text
  }

  /** The dict `optimize_content` builds and returns. */
  function Optimization(content: ContentRecord, research: ResearchData, target: Option<seq<string>>): OptimizationResult {
    var keywords := EffectiveKeywords(target, research);
    var readability := ReadabilityOf(content.fullText);
    OptimizationResult(
      content,
      TitleOptimization(content.title, keywords),
      MetaOptimization(content.metaDescription, keywords),
      DensityReportOf(content.fullText, keywords),
      SuggestInternalLinks(content.fullText),
      ExternalLinks(research),
      readability,
      SeoScoreOf(content, keywords),
      CheckTechnicalSeo(content),
      PredictPerformance(content, keywords),
      ApplyAllOptimizations(content, readability))
  }

  /**
   * The final content is the original full text, whatever the analyses
   * found; every part of the result is computed from the same keyword list.
   */
  lemma OptimizationShape(content: ContentRecord, research: ResearchData, target: Option<seq<string>>)
    ensures var r, ks := Optimization(content, research, target), EffectiveKeywords(target, research);
            && r.finalContent == content.fullText
            && r.originalContent == content
            && r.seoOptimizedTitle.original == content.title
            && r.optimizedMetaDescription.original == content.metaDescription
            && r.keywordOptimizedContent.keywordAnalysis == AnalysisOf(content.fullText, ks)
            && r.seoScore.totalScore <= MaxScore
            && r.technicalSeo.passed <= r.technicalSeo.total == 4
            && |r.externalLinks| <= MaxExternalLinks
  {
    ExternalLinksShape(research);
  }

  /** An empty keyword list and no list at all both fall back to the research keywords. */
  lemma EmptyTargetFallsBack(content: ContentRecord, research: ResearchData)
    ensures Optimization(content, research, Some([])) == Optimization(content, research, None)
    ensures research.keywords != []
            ==> Optimization(content, research, None) == Optimization(content, research, Some(research.keywords))
  {
    assert EffectiveKeywords(Some([]), research) == EffectiveKeywords(None, research);
    if research.keywords != [] {
      assert EffectiveKeywords(Some(research.keywords), research) == EffectiveKeywords(None, research);
    }
  }

  // ---------------------------------------------------------------------
  // The report
  // ---------------------------------------------------------------------

  const NoOptimizationData := "No optimization data available"

  /**
   * What `generate_optimization_report` returns: the sentinel text while
   * nothing is cached, otherwise the values its report body shows.
   */
  datatype Report =
    | Sentinel(message: string)
    | Summary(
        percentage: real,
        grade: Grade,
        passed: nat,
        total: nat,
        titleSuggestion: seq<string>,
        metaSuggestion: seq<string>,
        keywordOptimizations: nat,
        internalLinks: nat,
        readabilityScore: Level,
        searchRankingPotential: Potential,
        estimatedTraffic: string)

  function ReportOf(cache: Option<OptimizationResult>): (r: Report)
    ensures r.Sentinel? <==> cache.None?
    ensures cache.None? ==> r == Sentinel(NoOptimizationData)
  {
    match cache
    case None => Sentinel(NoOptimizationData)
    case Some(o) =>
      Summary(
        o.seoScore.percentage,
        o.seoScore.grade,
        o.technicalSeo.passed,
        o.technicalSeo.total,
        Take(o.seoOptimizedTitle.suggestions, 1),
        Take(o.optimizedMetaDescription.suggestions, 1),
        |o.keywordOptimizedContent.suggestions|,
        |o.internalLinks|,
        o.readabilityImprovements.readabilityScore,
        o.performancePredictions.searchRankingPotential,
        o.performancePredictions.estimatedOrganicTraffic)
  }

  /** The report on a cached optimisation shows its score, grade and checklist count. */
  lemma ReportOfOptimization(content: ContentRecord, research: ResearchData, target: Option<seq<string>>)
    ensures var o := Optimization(content, research, target);
            var r := ReportOf(Some(o));
            && r.Summary?
            && r.percentage == o.seoScore.totalScore as real
            && r.grade == GradeOf(o.seoScore.totalScore)
            && r.passed <= r.total == 4
            && |r.titleSuggestion| <= 1 && |r.metaSuggestion| <= 1
            && r.keywordOptimizations <= AnalysedKeywords
            && r.internalLinks == 3
  {
    var o, ks := Optimization(content, research, target), EffectiveKeywords(target, research);
    assert o.seoScore == SeoScoreOf(content, ks);
    assert o.technicalSeo == CheckTechnicalSeo(content);
    assert o.keywordOptimizedContent == DensityReportOf(content.fullText, ks);
    AnalysisOfShape(content.fullText, ks);
  }

  // ---------------------------------------------------------------------
  // The agent
  // ---------------------------------------------------------------------

  class SeoEditorAgent {
    /** `self.optimized_content`: empty until the first optimisation. */
    var optimizedContent: Option<OptimizationResult>

    constructor()
      ensures optimizedContent == None
    {
      optimizedContent := None;
    }

    /** `optimize_content`: runs every analysis, then caches the result over any earlier one. */
    method OptimizeContent(content: ContentRecord, research: ResearchData, target: Option<seq<string>>)
      returns (r: OptimizationResult)
      modifies this
      ensures r == Optimization(content, research, target)
      ensures optimizedContent == Some(r)
    {
      var keywords := research.keywords;
      if target.Some? && target.value != [] {
        keywords := target.value;
      }
      var title := OptimizeTitle(content.title, keywords);
      var meta := OptimizeMetaDescription(content.metaDescription, keywords);
      var density := OptimizeKeywordDensity(content.fullText, keywords);
      var internal := SuggestInternalLinks(content.fullText);
      var links := SuggestExternalLinks(research);
      var readability := ImproveReadability(content.fullText);
      var seoScore := CalculateSeoScore(content, keywords);
      var technical := CheckTechnicalSeo(content);
      var predictions := PredictPerformance(content, keywords);
      r := OptimizationResult(content, title, meta, density, internal, links, readability, seoScore, technical, predictions, "");
      r := r.(finalContent := ApplyAllOptimizations(content, r.readabilityImprovements));
      optimizedContent := Some(r);
    }

    /** `generate_optimization_report` */
    method GenerateOptimizationReport() returns (report: Report)
      ensures report == ReportOf(optimizedContent)
    {
      if optimizedContent.None? {
        return Sentinel(NoOptimizationData);
      }
      var o := optimizedContent.value;
      report := Summary(
        o.seoScore.percentage,
        o.seoScore.grade,
        o.technicalSeo.passed,
        o.technicalSeo.total,
        Take(o.seoOptimizedTitle.suggestions, 1),
        Take(o.optimizedMetaDescription.suggestions, 1),
        |o.keywordOptimizedContent.suggestions|,
        |o.internalLinks|,
        o.readabilityImprovements.readabilityScore,
        o.performancePredictions.searchRankingPotential,
        o.performancePredictions.estimatedOrganicTraffic);
    }
  }

  /**
   * A fresh agent reports the sentinel; after an optimisation the report
   * carries that run's grade; a second run with the same inputs returns the
   * same result.
   */
  method AgentLifecycle(content: ContentRecord, research: ResearchData, target: Option<seq<string>>)
    returns (before: Report, first: OptimizationResult, second: OptimizationResult, after: Report)
    ensures before == Sentinel(NoOptimizationData)
    ensures first == second
    ensures after.Summary? && after.grade == first.seoScore.grade
  {
    var agent := new SeoEditorAgent();
    before := agent.GenerateOptimizationReport();
    first := agent.OptimizeContent(content, research, target);
    second := agent.OptimizeContent(content, research, target);
    after := agent.GenerateOptimizationReport();
  }
}

=== FILE: content.dfy ===
/** The records the agent consumes: the written content and the research behind it. */
module Content {

  /** `content_data`: `title`, `meta_description`, `full_text` and the writer's `word_count`. */
  datatype ContentRecord = ContentRecord(
    title: string,
    metaDescription: string,
    fullText: string,
    wordCount: nat)

  datatype Statistic = Statistic(stat: string, source: string)

  datatype ExpertOpinion = ExpertOpinion(expert: string, title: string)

  /**
   * `research_data`: the `keyword` of each entry of `keywords`, then
   * `statistics` and `expert_opinions`.
   */
  datatype ResearchData = ResearchData(
    keywords: seq<string>,
    statistics: seq<Statistic>,
    expertOpinions: seq<ExpertOpinion>)
}

=== FILE: dict.dfy ===
/**
 * A Python `dict` as the list of its items in insertion order, which is the
 * order `dict.items()` reports them in.
 */
module Dict {

  predicate Distinct<T(==)>(s: seq<T>) {
    forall i, j :: 0 <= i < j < |s| ==> s[i] != s[j]
  }

  /** `list(d.keys())` */
  function Keys<K, V>(d: seq<(K, V)>): (ks: seq<K>)
    ensures |ks| == |d|
    ensures forall i :: 0 <= i < |d| ==> ks[i] == d[i].0
  {
    seq(|d|, i requires 0 <= i < |d| => d[i].0)
  }

  /** Position of `x` in `s`. */
  function IndexOf<T(==)>(s: seq<T>, x: T): (i: nat)
    requires x in s
    ensures i < |s| && s[i] == x
  {
    if s[0] == x then 0 else 1 + IndexOf(s[1..], x)
  }

  /**
   * `d[k] = v`: a key already present keeps its position and takes the new
   * value; a new key goes to the end. A dict never holds a key twice.
   */
  function Put<K(==), V>(d: seq<(K, V)>, k: K, v: V): (r: seq<(K, V)>)
    requires Distinct(Keys(d))
    ensures Distinct(Keys(r))
    ensures Keys(r) == if k in Keys(d) then Keys(d) else Keys(d) + [k]
    ensures forall i :: 0 <= i < |r| && r[i].0 == k ==> r[i].1 == v
    ensures forall i :: 0 <= i < |r| && r[i].0 != k ==> i < |d| && r[i] == d[i]
  {
    if k in Keys(d) then
      var i := IndexOf(Keys(d), k);
      var r := d[i := (k, v)];
      assert Keys(r) == Keys(d);
      r
    else
      var r := d + [(k, v)];
      assert Keys(r) == Keys(d) + [k];
      r
  }

  /** The distinct elements of `s`, in order of first occurrence. */
  function Dedup<T(==)>(s: seq<T>): (r: seq<T>)
    ensures forall i :: 0 <= i < |r| ==> r[i] in s
    ensures forall i :: 0 <= i < |s| ==> s[i] in r
    ensures Distinct(r)
    ensures |r| <= |s|
    decreases |s|
  {
    if s == [] then []
    else
      var d := Dedup(s[..|s| - 1]);
      assert s == s[..|s| - 1] + [s[|s| - 1]];
      if s[|s| - 1] in d then d else d + [s[|s| - 1]]
  }
}

=== FILE: field_optimizer.dfy ===
/**
 * Title and meta-description optimisation: keyword presence among the first
 * two keywords, length-band suggestions, the action-word check and the
 * rewrite that puts the primary keyword into a field that lacks it.
 */
module FieldOptimizer {
  import opened Text

  const TitleMin := 30
  const TitleMax := 60
  const MetaMin := 120
  const MetaMax := 160
  /** Length of the meta description kept by the truncating rewrite. */
  const MetaCut := 140

  const ActionWords: seq<string> := ["discover", "learn", "find out", "get", "download", "read", "explore"]

  /** `keywords[0] if keywords else ""` */
  function PrimaryKeyword(keywords: seq<string>): string {
    if keywords == [] then "" else keywords[0]
  }

  /** `any(kw.lower() in field.lower() for kw in keywords[:2])` */
  function KeywordPresent(field: string, keywords: seq<string>): (b: bool)
    ensures b <==> exists k :: 0 <= k < Min(|keywords|, 2) && Contains(Lower(field), Lower(keywords[k]))
  {
    var top := Take(keywords, 2);
    assert forall k :: 0 <= k < |top| ==> top[k] == keywords[k];
    AnyIn(Lower(field), LowerAll(top))
  }

  /** The field already holds the primary keyword (case-insensitively), so it counts as present. */
  lemma PresentWhenPrimaryContained(field: string, keywords: seq<string>)
    requires keywords != []
    requires Contains(Lower(field), Lower(keywords[0]))
    ensures KeywordPresent(field, keywords)
  {
  }

  /** Whether a rewrite happens at all: the keyword is absent and there is a primary keyword. */
  predicate NeedsKeyword(field: string, keywords: seq<string>) {
    !KeywordPresent(field, keywords) && PrimaryKeyword(keywords) != []
  }

  // ---------------------------------------------------------------------
  // Title
  // ---------------------------------------------------------------------

  datatype TitleResult = TitleResult(
    original: string,
    optimized: string,
    length: nat,
    keywordPresent: bool,
    suggestions: seq<string>)

  function IncludeInTitle(keyword: string): string {
    "Include primary keyword '" + keyword + "' in title"
  }

  function ShortenTitle(length: nat): string {
    "Title is " + NatToString(length) + " characters, consider shortening to under 60"
  }

  function LengthenTitle(length: nat): string {
    "Title is " + NatToString(length) + " characters, consider making it more descriptive"
  }

  /**
   * The title with the keyword put in: after the first colon (then stripped)
   * when the title has one, in front followed by ": " otherwise.
   */
  function InsertKeywordInTitle(title: string, keyword: string): string {
    if ':' in title then
      var k := FirstIndex(title, ':');
      Strip((title[..k] + ": ") + keyword + (" " + title[k + 1..]))
    else
      keyword + ": " + title
  }

  /** The inserted keyword survives the strip unless it ends in whitespace. */
  lemma InsertedTitleContainsKeyword(title: string, keyword: string)
    requires keyword != [] && !IsSpace(keyword[|keyword| - 1])
    ensures Contains(Lower(InsertKeywordInTitle(title, keyword)), Lower(keyword))
  {
    if ':' in title {
      InsertedAfterColon(title, keyword);
    } else {
      var r := keyword + ": " + title;
      assert InsertKeywordInTitle(title, keyword) == r;
      assert [] + keyword + (": " + title) == r;
      ContainsLowerOf([], keyword, ": " + title);
    }
  }

  /** The colon case of `InsertedTitleContainsKeyword`: the colon keeps the keyword inside the strip. */
  lemma InsertedAfterColon(title: string, keyword: string)
    requires ':' in title
    requires keyword != [] && !IsSpace(keyword[|keyword| - 1])
    ensures Contains(Lower(InsertKeywordInTitle(title, keyword)), Lower(keyword))
  {
    var k := FirstIndex(title, ':');
    var a, b := title[..k] + ": ", " " + title[k + 1..];
    assert a[k] == ':';
    StripKeepsInfix(a, keyword, b, k);
  }

  /** The `optimized` title. */
  function OptimizedTitle(title: string, keywords: seq<string>): (r: string)
    ensures !NeedsKeyword(title, keywords) ==> r == title
    ensures NeedsKeyword(title, keywords) && ':' !in title ==> r == PrimaryKeyword(keywords) + ": " + title
  {
    if NeedsKeyword(title, keywords) then InsertKeywordInTitle(title, PrimaryKeyword(keywords)) else title
  }

  /** Example: "Growth" with keywords ["growth hacking"] becomes "growth hacking: Growth". */
  lemma GrowthTitleExample()
    ensures OptimizedTitle("Growth", ["growth hacking"]) == "growth hacking: Growth"
  {
    var t, kw := Lower("Growth"), Lower("growth hacking");
    NoRoomNoContains(t, kw);
    assert !KeywordPresent("Growth", ["growth hacking"]);
  }

  /** With the first colon at `k`, the keyword goes right after it. */
  lemma InsertAtColon(title: string, keyword: string, k: nat)
    requires k < |title| && title[k] == ':' && forall j :: 0 <= j < k ==> title[j] != ':'
    ensures InsertKeywordInTitle(title, keyword) == Strip((title[..k] + ": ") + keyword + (" " + title[k + 1..]))
  {
  }

  /** Neither "Tips: Go" nor its lower-case form holds a 'w', so "web" is absent. */
  lemma TipsLacksWeb()
    ensures !KeywordPresent("Tips: Go", ["web"])
  {
    var t := Lower("Tips: Go");
    assert forall j :: 0 <= j < |t| ==> t[j] != 'w';
    MissingFirstCharNoContains(t, Lower("web"));
  }

  /** The pieces of the colon rewrite of "Tips: Go", put together; `TipsWithWeb` needs this. */
  lemma TipsPieces()
    ensures ("Tips: Go"[..4] + ": ") + "web" + (" " + "Tips: Go"[5..]) == "Tips: web  Go"
  {
    assert "Tips: Go"[..4] == "Tips" && "Tips: Go"[5..] == " Go";
  }

  /** The colon rewrite of "Tips: Go" with "web", already free of outer whitespace. */
  lemma TipsWithWeb()
    ensures InsertKeywordInTitle("Tips: Go", "web") == "Tips: web  Go"
  {
    InsertAtColon("Tips: Go", "web", 4);
    TipsPieces();
    StripKeepsTrimmed("Tips: web  Go");
  }

  /**
   * Example: "Tips: Go" with keywords ["web"] becomes "Tips: web  Go"; the
   * text after the colon keeps its own leading space, so two spaces follow
   * the keyword.
   */
  lemma ColonTitleExample()
    ensures OptimizedTitle("Tips: Go", ["web"]) == "Tips: web  Go"
  {
    TipsLacksWeb();
    TipsWithWeb();
  }

  /**
   * Optimising an optimised title changes nothing more, provided the primary
   * keyword does not end in whitespace (which the strip could remove).
   */
  lemma {:induction false} OptimizedTitleIdempotent(title: string, keywords: seq<string>)
    requires var kw := PrimaryKeyword(keywords); kw != [] ==> !IsSpace(kw[|kw| - 1])
    ensures OptimizedTitle(OptimizedTitle(title, keywords), keywords) == OptimizedTitle(title, keywords)
  {
    if NeedsKeyword(title, keywords) {
      InsertedTitleContainsKeyword(title, PrimaryKeyword(keywords));
      PresentWhenPrimaryContained(OptimizedTitle(title, keywords), keywords);
    }
  }

  /** The suggestions of the title optimiser, in the order they are appended. */
  function TitleSuggestions(title: string, keywords: seq<string>): seq<string> {
    (if NeedsKeyword(title, keywords) then [IncludeInTitle(PrimaryKeyword(keywords))] else [])
    + (if |title| > TitleMax then [ShortenTitle(|title|)]
       else if |title| < TitleMin then [LengthenTitle(|title|)]
       else [])
  }

  /**
   * At most two title suggestions: the keyword one first when the keyword is
   * missing, then a length one only when the title is outside 30..60.
   */
  lemma TitleSuggestionsShape(title: string, keywords: seq<string>)
    ensures var r := TitleSuggestions(title, keywords);
            && |r| == (if NeedsKeyword(title, keywords) then 1 else 0)
                      + (if |title| > TitleMax || |title| < TitleMin then 1 else 0)
            && (NeedsKeyword(title, keywords) ==> r[0] == IncludeInTitle(PrimaryKeyword(keywords)))
            && (|title| > TitleMax ==> r[|r| - 1] == ShortenTitle(|title|))
            && (|title| < TitleMin ==> r[|r| - 1] == LengthenTitle(|title|))
  {
  }

  /** The whole result of `_optimize_title`. */
  function TitleOptimization(title: string, keywords: seq<string>): (r: TitleResult)
    ensures r.original == title && r.length == |r.optimized|
  {
    var optimized := OptimizedTitle(title, keywords);
    TitleResult(title, optimized, |optimized|, KeywordPresent(title, keywords), TitleSuggestions(title, keywords))
  }

  /**
   * The rewritten title is the original when a keyword is already among the
   * first two or there is no primary keyword, and otherwise holds the primary
   * keyword (unless that ends in whitespace, which the strip may remove).
   */
  lemma TitleOptimizationContract(title: string, keywords: seq<string>)
    ensures var r := TitleOptimization(title, keywords);
            && (r.keywordPresent || PrimaryKeyword(keywords) == [] ==> r.optimized == title)
            && (var kw := PrimaryKeyword(keywords);
                !r.keywordPresent && kw != [] && !IsSpace(kw[|kw| - 1])
                ==> Contains(Lower(r.optimized), Lower(kw)))
  {
    var r := TitleOptimization(title, keywords);
    var kw := PrimaryKeyword(keywords);
    assert r.optimized == OptimizedTitle(title, keywords) && r.keywordPresent == KeywordPresent(title, keywords);
    if NeedsKeyword(title, keywords) && !IsSpace(kw[|kw| - 1]) {
      InsertedTitleContainsKeyword(title, kw);
    }
  }

  /** `_optimize_title`: builds the suggestion list step by step, then the rewrite. */
  method OptimizeTitle(title: string, keywords: seq<string>) returns (r: TitleResult)
    ensures r == TitleOptimization(title, keywords)
  {
    var primary := if keywords == [] then "" else keywords[0];
    assert primary == PrimaryKeyword(keywords);
    var keywordInTitle := KeywordPresent(title, keywords);
    assert (!keywordInTitle && primary != "") == NeedsKeyword(title, keywords);
    var suggestions: seq<string> := [];
    if !keywordInTitle && primary != "" {
      suggestions := suggestions + [IncludeInTitle(primary)];
    }
    assert suggestions == if NeedsKeyword(title, keywords) then [IncludeInTitle(PrimaryKeyword(keywords))] else [];
    if |title| > TitleMax {
      suggestions := suggestions + [ShortenTitle(|title|)];
    } else if |title| < TitleMin {
      suggestions := suggestions + [LengthenTitle(|title|)];
    }
    assert suggestions == TitleSuggestions(title, keywords);
    var optimized := title;
    if !keywordInTitle && primary != "" {
      optimized := InsertKeywordInTitle(title, primary);
    }
    assert optimized == OptimizedTitle(title, keywords);
    r := TitleResult(title, optimized, |optimized|, keywordInTitle, suggestions);
  }

  // ---------------------------------------------------------------------
  // Meta description
  // ---------------------------------------------------------------------

  datatype MetaResult = MetaResult(
    original: string,
    optimized: string,
    length: nat,
    keywordPresent: bool,
    hasActionWords: bool,
    suggestions: seq<string>)

  function IncludeInMeta(keyword: string): string {
    "Include primary keyword '" + keyword + "' in meta description"
  }

  function TrimMeta(length: nat): string {
    "Meta description is " + NatToString(length) + " characters, trim to under 160"
  }

  const LengthenMeta := "Consider making meta description more descriptive (120-160 chars)"
  const AddActionWords := "Add action words to encourage clicks"

  /** `any(word in meta.lower() for word in action_words)` */
  function HasActionWords(meta: string): (b: bool)
    ensures b <==> exists k :: 0 <= k < |ActionWords| && Contains(Lower(meta), ActionWords[k])
  {
    AnyIn(Lower(meta), ActionWords)
  }

  /**
   * The meta description with the keyword put in front; when that is over
   * 160 characters, the first 140 characters followed by a call to learn more
   * about the keyword instead.
   */
  function InsertKeywordInMeta(meta: string, keyword: string): (r: string)
    ensures |keyword| + 2 + |meta| <= MetaMax ==> r == keyword + ": " + meta
    ensures |keyword| + 2 + |meta| > MetaMax ==> r == Take(meta, MetaCut) + "... Learn more about " + keyword + "!"
    ensures |r| > MetaMax <==> |keyword| + 2 + |meta| > MetaMax
  {
    var prefixed := keyword + ": " + meta;
    if |prefixed| > MetaMax then
      var head := Take(meta, MetaCut) + "... Learn more about ";
      assert |head| == Min(|meta|, MetaCut) + 21;
      head + keyword + "!"
    else
      prefixed
  }

  /** Either form of the rewrite holds the keyword. */
  lemma InsertedMetaContainsKeyword(meta: string, keyword: string)
    ensures Contains(Lower(InsertKeywordInMeta(meta, keyword)), Lower(keyword))
  {
    if |keyword| + 2 + |meta| > MetaMax {
      var head := Take(meta, MetaCut) + "... Learn more about ";
      assert InsertKeywordInMeta(meta, keyword) == head + keyword + "!";
      ContainsLowerOf(head, keyword, "!");
    } else {
      assert InsertKeywordInMeta(meta, keyword) == [] + keyword + (": " + meta);
      ContainsLowerOf([], keyword, ": " + meta);
    }
  }

  /** The `optimized` meta description. */
  function OptimizedMeta(meta: string, keywords: seq<string>): (r: string)
    ensures !NeedsKeyword(meta, keywords) ==> r == meta
  {
    if NeedsKeyword(meta, keywords) then InsertKeywordInMeta(meta, PrimaryKeyword(keywords)) else meta
  }

  /** A second optimisation leaves an optimised meta description alone. */
  lemma {:induction false} OptimizedMetaIdempotent(meta: string, keywords: seq<string>)
    ensures OptimizedMeta(OptimizedMeta(meta, keywords), keywords) == OptimizedMeta(meta, keywords)
  {
    if NeedsKeyword(meta, keywords) {
      InsertedMetaContainsKeyword(meta, PrimaryKeyword(keywords));
      PresentWhenPrimaryContained(OptimizedMeta(meta, keywords), keywords);
    }
  }

  /** The suggestions of the meta-description optimiser, in the order they are appended. */
  function MetaSuggestions(meta: string, keywords: seq<string>): seq<string> {
    (if NeedsKeyword(meta, keywords) then [IncludeInMeta(PrimaryKeyword(keywords))] else [])
    + (if |meta| > MetaMax then [TrimMeta(|meta|)]
       else if |meta| < MetaMin then [LengthenMeta]
       else [])
    + (if HasActionWords(meta) then [] else [AddActionWords])
  }

  /**
   * At most three meta suggestions: the keyword one first when the keyword is
   * missing, a length one outside 120..160, and the action-word one last
   * exactly when none of the action words occurs.
   */
  lemma MetaSuggestionsShape(meta: string, keywords: seq<string>)
    ensures var r := MetaSuggestions(meta, keywords);
            && |r| == (if NeedsKeyword(meta, keywords) then 1 else 0)
                      + (if |meta| > MetaMax || |meta| < MetaMin then 1 else 0)
                      + (if HasActionWords(meta) then 0 else 1)
            && (NeedsKeyword(meta, keywords) ==> r[0] == IncludeInMeta(PrimaryKeyword(keywords)))
            && (!HasActionWords(meta) ==> r[|r| - 1] == AddActionWords)
            && (HasActionWords(meta) ==> AddActionWords !in r)
  {
    var r := MetaSuggestions(meta, keywords);
    if HasActionWords(meta) {
      assert forall k :: 0 <= k < |r| ==> r[k] != AddActionWords by {
        forall k | 0 <= k < |r|
          ensures r[k] != AddActionWords
        {
          assert r[k][0] != AddActionWords[0] || r[k][1] != AddActionWords[1] || |r[k]| != |AddActionWords|;
        }
      }
    }
  }

  /**
   * The rewritten description is the original when a keyword is already
   * among the first two (whatever its length) or there is no primary
   * keyword, and otherwise holds the primary keyword.
   */
  lemma MetaOptimizationContract(meta: string, keywords: seq<string>)
    ensures var r := MetaOptimization(meta, keywords);
            && (r.keywordPresent || PrimaryKeyword(keywords) == [] ==> r.optimized == meta)
            && (!r.keywordPresent && PrimaryKeyword(keywords) != []
                ==> Contains(Lower(r.optimized), Lower(PrimaryKeyword(keywords))))
  {
    InsertedMetaContainsKeyword(meta, PrimaryKeyword(keywords));
  }

  /** The whole result of `_optimize_meta_description`. */
  function MetaOptimization(meta: string, keywords: seq<string>): (r: MetaResult)
    ensures r.original == meta && r.length == |r.optimized|
  {
    var optimized := OptimizedMeta(meta, keywords);
    MetaResult(meta, optimized, |optimized|, KeywordPresent(meta, keywords), HasActionWords(meta),
               MetaSuggestions(meta, keywords))
  }

  /** `_optimize_meta_description` */
  method OptimizeMetaDescription(meta: string, keywords: seq<string>) returns (r: MetaResult)
    ensures r == MetaOptimization(meta, keywords)
  {
    var primary := if keywords == [] then "" else keywords[0];
    assert primary == PrimaryKeyword(keywords);
    var keywordPresent := KeywordPresent(meta, keywords);
    assert (!keywordPresent && primary != "") == NeedsKeyword(meta, keywords);
    var suggestions: seq<string> := [];
    if !keywordPresent && primary != "" {
      suggestions := suggestions + [IncludeInMeta(primary)];
    }
    assert suggestions == if NeedsKeyword(meta, keywords) then [IncludeInMeta(PrimaryKeyword(keywords))] else [];
    if |meta| > MetaMax {
      suggestions := suggestions + [TrimMeta(|meta|)];
    } else if |meta| < MetaMin {
      suggestions := suggestions + [LengthenMeta];
    }
    ghost var lengthChecked := suggestions;
    var hasAction := HasActionWords(meta);
    if !hasAction {
      suggestions := suggestions + [AddActionWords];
    }
    assert suggestions == lengthChecked + (if hasAction then [] else [AddActionWords]);
    assert suggestions == MetaSuggestions(meta, keywords);
    var optimized := meta;
    if !keywordPresent && primary != "" {
      optimized := primary + ": " + meta;
      if |optimized| > MetaMax {
        optimized := Take(meta, MetaCut) + "... Learn more about " + primary + "!";
      }
      assert optimized == InsertKeywordInMeta(meta, primary);
    }
    assert optimized == OptimizedMeta(meta, keywords);
    r := MetaResult(meta, optimized, |optimized|, keywordPresent, hasAction, suggestions);
  }
}

=== FILE: keyword_density.dfy ===
/**
 * Keyword density analysis: whole-word counts of the first five keywords,
 * their density against the whitespace word count of the text, a status from
 * the keyword's optimal range, and one suggestion per keyword off its range.
 */
module KeywordDensity {
  import opened Text
  import opened Dict
  import opened WordMatch

  /** Only `keywords[:5]` are analysed. */
  const AnalysedKeywords := 5

  datatype Status = UnderOptimized | Optimal | OverOptimized

  datatype OptimalRange = OptimalRange(low: real, high: real)

  /** The range for the primary keyword, (1, 3) percent. */
  const PrimaryRange := OptimalRange(1.0, 3.0)
  /** The range for every other keyword, (0.5, 1) percent. */
  const SecondaryRange := OptimalRange(0.5, 1.0)

  /** `(count / words) * 100 if words > 0 else 0` */
  function DensityPercent(count: nat, words: nat): (d: real)
    ensures d >= 0.0
    ensures d == 0.0 <==> count == 0 || words == 0
  {
    if words > 0 then (count as real / words as real) * 100.0 else 0.0
  }

  /** `under-optimized` below the range, `over-optimized` above it, `optimal` inside. */
  function Classify(density: real, range: OptimalRange): (s: Status)
    ensures s == UnderOptimized <==> density < range.low
    ensures range.low <= range.high ==> (s == OverOptimized <==> density > range.high)
    ensures range.low <= range.high ==> (s == Optimal <==> range.low <= density <= range.high)
  {
    if density < range.low then UnderOptimized
    else if density > range.high then OverOptimized
    else Optimal
  }

  /** A keyword equal to `keywords[0]` is primary, wherever it stands in the list. */
  function RangeFor(keyword: string, keywords: seq<string>): OptimalRange {
    if keywords != [] && keyword == keywords[0] then PrimaryRange else SecondaryRange
  }

  datatype KeywordEntry = KeywordEntry(count: nat, density: real, status: Status, optimalRange: OptimalRange)

  /** The value stored under `keyword` in `keyword_analysis`. */
  function AnalyzeKeyword(content: string, totalWords: nat, keyword: string, keywords: seq<string>): KeywordEntry {
    var count := WholeWordCount(content, keyword);
    var density := DensityPercent(count, totalWords);
    var range := RangeFor(keyword, keywords);
    KeywordEntry(count, density, Classify(density, range), range)
  }

  /** `keyword_analysis`, a dict in insertion order. */
  type Analysis = seq<(string, KeywordEntry)>

  /** The dict after the loop has visited the keywords `ks`. */
  function AnalyzeAll(content: string, totalWords: nat, ks: seq<string>, keywords: seq<string>): (a: Analysis)
    ensures Distinct(Keys(a))
    decreases |ks|
  {
    if ks == [] then []
    else
      var last := ks[|ks| - 1];
      Put(AnalyzeAll(content, totalWords, ks[..|ks| - 1], keywords), last,
          AnalyzeKeyword(content, totalWords, last, keywords))
  }

  /** One more visited keyword puts its entry into the dict. */
  lemma AnalyzeAllStep(content: string, totalWords: nat, ks: seq<string>, i: nat, keywords: seq<string>)
    requires i < |ks|
    ensures AnalyzeAll(content, totalWords, ks[..i + 1], keywords)
            == Put(AnalyzeAll(content, totalWords, ks[..i], keywords), ks[i],
                   AnalyzeKeyword(content, totalWords, ks[i], keywords))
  {
    assert ks[..i + 1][..i] == ks[..i];
  }

  /** `len(content.split())` */
  function WordCount(content: string): nat {
    |Words(content)|
  }

  /** The `keyword_analysis` of `_optimize_keyword_density`. */
  function AnalysisOf(content: string, keywords: seq<string>): Analysis {
    AnalyzeAll(content, WordCount(content), Take(keywords, AnalysedKeywords), keywords)
  }

  lemma {:induction false} AnalyzeAllShape(content: string, totalWords: nat, ks: seq<string>, keywords: seq<string>)
    ensures var a := AnalyzeAll(content, totalWords, ks, keywords);
            && Keys(a) == Dedup(ks)
            && forall i :: 0 <= i < |a| ==> a[i].1 == AnalyzeKeyword(content, totalWords, a[i].0, keywords)
    decreases |ks|
  {
    if ks != [] {
      AnalyzeAllShape(content, totalWords, ks[..|ks| - 1], keywords);
    }
  }

  /**
   * What the entry stored under a keyword holds: the keyword's whole-word
   * count, its density against the text's word count, the primary range when
   * the keyword equals the first one (the secondary range otherwise), and the
   * status that density has in that range.
   */
  predicate MeasuresKeyword(content: string, keywords: seq<string>, item: (string, KeywordEntry)) {
    var e := item.1;
    && e.count == WholeWordCount(content, item.0)
    && e.density == DensityPercent(e.count, WordCount(content))
    && e.optimalRange == (if keywords != [] && item.0 == keywords[0] then PrimaryRange else SecondaryRange)
    && e.status == Classify(e.density, e.optimalRange)
  }

  /**
   * The analysis has one entry per distinct keyword among the first five, in
   * order of first occurrence (a repeated keyword collapses into one entry),
   * and each entry measures its keyword.
   */
  lemma AnalysisOfShape(content: string, keywords: seq<string>)
    ensures var a := AnalysisOf(content, keywords);
            && Keys(a) == Dedup(Take(keywords, AnalysedKeywords))
            && |a| <= AnalysedKeywords
            && Distinct(Keys(a))
            && (forall i :: 0 <= i < |a| ==> a[i].0 in Take(keywords, AnalysedKeywords))
            && (forall i :: 0 <= i < |a| ==> MeasuresKeyword(content, keywords, a[i]))
  {
    var a := AnalysisOf(content, keywords);
    var top := Take(keywords, AnalysedKeywords);
    var w := WordCount(content);
    AnalyzeAllShape(content, w, top, keywords);
    forall i | 0 <= i < |a|
      ensures a[i].0 in top && MeasuresKeyword(content, keywords, a[i])
    {
      assert a[i].0 == Keys(a)[i];
      assert a[i].1 == AnalyzeKeyword(content, w, a[i].0, keywords);
    }
  }

  /** Every analysed keyword has its entry. */
  lemma AnalysisCoversKeywords(content: string, keywords: seq<string>, j: nat)
    requires j < Min(|keywords|, AnalysedKeywords)
    ensures keywords[j] in Keys(AnalysisOf(content, keywords))
  {
    AnalysisOfShape(content, keywords);
    assert Take(keywords, AnalysedKeywords)[j] == keywords[j];
  }

  /** On a blank text every keyword has density 0 and is under-optimized. */
  lemma BlankTextIsUnderOptimized(content: string, keywords: seq<string>)
    requires IsBlank(content)
    ensures var a := AnalysisOf(content, keywords);
            forall i :: 0 <= i < |a| ==> a[i].1.density == 0.0 && a[i].1.status == UnderOptimized
  {
    WordsEmptyIffBlank(content);
    AnalysisOfShape(content, keywords);
  }

  // ---------------------------------------------------------------------
  // Suggestions
  // ---------------------------------------------------------------------

  /**
   * "Increase '<keyword>' usage - currently <density>%, target <low>-<high>%"
   * and its "Reduce" counterpart.
   */
  datatype KeywordSuggestion =
    | IncreaseUsage(keyword: string, density: real, target: OptimalRange)
    | ReduceUsage(keyword: string, density: real, target: OptimalRange)

  /** The suggestions one entry contributes: none when optimal, one otherwise. */
  function SuggestionFor(item: (string, KeywordEntry)): (r: seq<KeywordSuggestion>)
    ensures |r| == if item.1.status == Optimal then 0 else 1
    ensures |r| == 1 ==> r[0].keyword == item.0 && r[0].density == item.1.density
                         && r[0].target == item.1.optimalRange
                         && (r[0].IncreaseUsage? <==> item.1.status == UnderOptimized)
  {
    match item.1.status
    case UnderOptimized => [IncreaseUsage(item.0, item.1.density, item.1.optimalRange)]
    case OverOptimized => [ReduceUsage(item.0, item.1.density, item.1.optimalRange)]
    case Optimal => []
  }

  /** `_generate_keyword_suggestions`: the entries' suggestions in entry order. */
  function KeywordSuggestions(a: Analysis): (r: seq<KeywordSuggestion>)
    ensures |r| <= |a|
    decreases |a|
  {
    if a == [] then [] else KeywordSuggestions(a[..|a| - 1]) + SuggestionFor(a[|a| - 1])
  }

  /** Suggestions are produced entry by entry: those of a concatenation are concatenated. */
  lemma {:induction false} KeywordSuggestionsAppend(a: Analysis, b: Analysis)
    ensures KeywordSuggestions(a + b) == KeywordSuggestions(a) + KeywordSuggestions(b)
    decreases |b|
  {
    if b == [] {
      assert a + b == a;
    } else {
      var c, init, last := a + b, b[..|b| - 1], b[|b| - 1];
      assert c[..|c| - 1] == a + init;
      assert c[|c| - 1] == last;
      calc {
        KeywordSuggestions(c);
        KeywordSuggestions(a + init) + SuggestionFor(last);
        { KeywordSuggestionsAppend(a, init); }
        KeywordSuggestions(a) + KeywordSuggestions(init) + SuggestionFor(last);
        KeywordSuggestions(a) + KeywordSuggestions(b);
      }
    }
  }

  /** No suggestion at all exactly when every entry is optimal. */
  lemma {:induction false} NoSuggestionsIffAllOptimal(a: Analysis)
    ensures KeywordSuggestions(a) == [] <==> forall i :: 0 <= i < |a| ==> a[i].1.status == Optimal
    decreases |a|
  {
    if a != [] {
      var init := a[..|a| - 1];
      NoSuggestionsIffAllOptimal(init);
      assert forall i :: 0 <= i < |init| ==> init[i] == a[i];
    }
  }

  method GenerateKeywordSuggestions(a: Analysis) returns (suggestions: seq<KeywordSuggestion>)
    ensures suggestions == KeywordSuggestions(a)
  {
    suggestions := [];
    for i := 0 to |a|
      invariant suggestions == KeywordSuggestions(a[..i])
    {
      var (keyword, data) := a[i];
      if data.status == UnderOptimized {
        suggestions := suggestions + [IncreaseUsage(keyword, data.density, data.optimalRange)];
      } else if data.status == OverOptimized {
        suggestions := suggestions + [ReduceUsage(keyword, data.density, data.optimalRange)];
      }
      assert a[..i + 1][..i] == a[..i];
    }
    assert a[..|a|] == a;
  }

  // ---------------------------------------------------------------------
  // The whole analysis
  // ---------------------------------------------------------------------

  datatype DensityReport = DensityReport(
    totalWords: nat,
    keywordAnalysis: Analysis,
    suggestions: seq<KeywordSuggestion>)

  function DensityReportOf(content: string, keywords: seq<string>): DensityReport {
    var a := AnalysisOf(content, keywords);
    DensityReport(WordCount(content), a, KeywordSuggestions(a))
  }

  /** `_optimize_keyword_density`: fills the dict over `keywords[:5]`, then derives the suggestions. */
  method OptimizeKeywordDensity(content: string, keywords: seq<string>) returns (r: DensityReport)
    ensures r == DensityReportOf(content, keywords)
  {
    var wordCount := |Words(content)|;
    var top := Take(keywords, AnalysedKeywords);
    var analysis: Analysis := [];
    for i := 0 to |top|
      invariant analysis == AnalyzeAll(content, wordCount, top[..i], keywords)
    {
      var keyword := top[i];
      var exactCount := WholeWordCount(content, keyword);
      var density := DensityPercent(exactCount, wordCount);
      var isPrimary := keywords != [] && keyword == keywords[0];
      var range := if isPrimary then PrimaryRange else SecondaryRange;
      var status := Optimal;
      if density < range.low {
        status := UnderOptimized;
      } else if density > range.high {
        status := OverOptimized;
      }
      assert status == Classify(density, range);
      var entry := KeywordEntry(exactCount, density, status, range);
      AnalyzeAllStep(content, wordCount, top, i, keywords);
      analysis := Put(analysis, keyword, entry);
    }
    assert top[..|top|] == top;
    var suggestions := GenerateKeywordSuggestions(analysis);
    r := DensityReport(wordCount, analysis, suggestions);
  }
}

=== FILE: performance.dfy ===
/**
 * Performance predictions: ranking and traffic tiers from the SEO score,
 * engagement from the word count, sharing from the title's wording.
 */
module Performance {
  import opened Text
  import opened Content
  import opened SeoScoring

  datatype Potential = Low | Medium | High

  const HighTraffic := "1000-5000 visits/month"
  const MediumTraffic := "500-1000 visits/month"
  const LowTraffic := "100-500 visits/month"

  const EngagingWordCount := 1500

  /** `"high" if seo_score >= 80 else "medium" if seo_score >= 60 else "low"` */
  function RankingPotential(percentage: real): (p: Potential)
    ensures p == High <==> percentage >= 80.0
    ensures p == Medium <==> 60.0 <= percentage < 80.0
    ensures p == Low <==> percentage < 60.0
  {
    if percentage >= 80.0 then High else if percentage >= 60.0 then Medium else Low
  }

  /** The traffic band, written with the same thresholds as the ranking. */
  function TrafficEstimate(percentage: real): string {
    if percentage >= 80.0 then HighTraffic else if percentage >= 60.0 then MediumTraffic else LowTraffic
  }

  /** The band that goes with each ranking tier. */
  function TrafficFor(p: Potential): string {
    match p
    case High => HighTraffic
    case Medium => MediumTraffic
    case Low => LowTraffic
  }

  /** The traffic band always belongs to the ranking tier. */
  lemma TrafficFollowsRanking(percentage: real)
    ensures TrafficEstimate(percentage) == TrafficFor(RankingPotential(percentage))
  {
  }

  /** `"how to" in title.lower() or "guide" in title.lower()` */
  predicate Shareable(title: string) {
    Contains(Lower(title), "how to") || Contains(Lower(title), "guide")
  }

  datatype Predictions = Predictions(
    searchRankingPotential: Potential,
    estimatedOrganicTraffic: string,
    engagementPotential: Potential,
    socialSharingPotential: Potential)

  /** `_predict_performance` */
  function PredictPerformance(content: ContentRecord, keywords: seq<string>): (p: Predictions)
    ensures p.searchRankingPotential == RankingPotential(SeoScoreOf(content, keywords).percentage)
    ensures p.estimatedOrganicTraffic == TrafficFor(p.searchRankingPotential)
    ensures p.engagementPotential == High <==> content.wordCount >= EngagingWordCount
    ensures p.engagementPotential != Low && p.socialSharingPotential != Low
    ensures p.socialSharingPotential == High <==> Shareable(content.title)
  {
    var seoScore := SeoScoreOf(content, keywords).percentage;
    Predictions(
      RankingPotential(seoScore),
      TrafficEstimate(seoScore),
      if content.wordCount >= EngagingWordCount then High else Medium,
      if Shareable(content.title) then High else Medium)
  }

  /** The ranking tier is the grade read coarsely: A or B high, C or D medium, F low. */
  lemma RankingFollowsGrade(content: ContentRecord, keywords: seq<string>)
    ensures var g, p := SeoScoreOf(content, keywords).grade, PredictPerformance(content, keywords).searchRankingPotential;
            && (p == High <==> g == A || g == B)
            && (p == Medium <==> g == C || g == D)
            && (p == Low <==> g == F)
  {
  }

  /**
   * Engagement and content length agree: full length points mean high
   * engagement, and high engagement means the length earns points.
   */
  lemma EngagementFollowsLength(content: ContentRecord, keywords: seq<string>)
    ensures var e := PredictPerformance(content, keywords).engagementPotential;
            && (ContentLengthPoints(content.wordCount) == 20 ==> e == High)
            && (e == High ==> ContentLengthPoints(content.wordCount) in {10, 20})
  {
  }

  /** Example: the check ignores case, so "How To Grow" is shareable. */
  lemma HowToTitleIsShareable()
    ensures Shareable("How To Grow")
  {
    ContainsLowerOf([], "How To", " Grow");
    assert Lower("How To") == "how to";
    assert [] + "How To" + " Grow" == "How To Grow";
  }
}

=== FILE: readability.dfy ===
/**
 * Readability: average words per sentence and per paragraph, the share of
 * transition words among the whitespace words, the point score built from
 * the three, its bucket, and the fixed suggestions.
 */
module Readability {
  import opened Text

  /** `[s.strip() for s in re.split(r'[.!?]+', content) if s.strip()]` */
  function Sentences(content: string): seq<string> {
    StrippedNonBlank(SplitSentences(content))
  }

  const ParagraphBreak := "\n\n"

  /** `[p.strip() for p in content.split('\n\n') if p.strip()]` */
  function Paragraphs(content: string): seq<string> {
    StrippedNonBlank(SplitOn(content, ParagraphBreak))
  }

  /** `sum(len(x.split()) for x in pieces) / len(pieces) if pieces else 0` */
  function AverageWords(pieces: seq<string>): (avg: real)
    ensures avg >= 0.0
    ensures pieces == [] ==> avg == 0.0
  {
    if pieces == [] then 0.0 else TotalWords(pieces) as real / |pieces| as real
  }

  /** Paragraph splitting loses no words: the paragraphs hold every word of the text. */
  lemma ParagraphsHoldAllWords(content: string)
    ensures TotalWords(Paragraphs(content)) == |Words(content)|
  {
    JoinSplit(content, ParagraphBreak);
    WordsOfJoin(SplitOn(content, ParagraphBreak), ParagraphBreak);
    TotalWordsStrippedNonBlank(SplitOn(content, ParagraphBreak));
  }

  /** Every stripped non-blank piece holds at least one word. */
  lemma {:induction false} StrippedPiecesHaveWords(parts: seq<string>)
    ensures TotalWords(StrippedNonBlank(parts)) >= |StrippedNonBlank(parts)|
    decreases |parts|
  {
    if parts != [] {
      StrippedPiecesHaveWords(parts[1..]);
      var t := Strip(parts[0]);
      if t != [] {
        StripEmptyIffBlank(parts[0]);
        WordsOfStrip(parts[0]);
        WordsEmptyIffBlank(parts[0]);
        assert StrippedNonBlank(parts)[1..] == StrippedNonBlank(parts[1..]);
      }
    }
  }

  lemma {:induction false} SplitSentencesFromNoEnd(s: string, piece: string)
    requires NoSentenceEnd(piece) && NoSentenceEnd(s)
    ensures SplitSentencesFrom(s, piece) == [piece + s]
    decreases |s|
  {
    if s != [] {
      assert !IsSentenceEnd(s[0]);
      assert NoSentenceEnd(piece + [s[0]]) && NoSentenceEnd(s[1..]);
      SplitSentencesFromNoEnd(s[1..], piece + [s[0]]);
      assert piece + [s[0]] + s[1..] == piece + s;
    } else {
      assert piece + s == piece;
    }
  }

  /** A text without `.`, `!` or `?` is one sentence, or none when it is blank. */
  lemma SentencesWithoutEnds(content: string)
    requires NoSentenceEnd(content)
    ensures Sentences(content) == if IsBlank(content) then [] else [Strip(content)]
  {
    SplitSentencesFromNoEnd(content, []);
    assert [] + content == content;
    StripEmptyIffBlank(content);
  }

  /** A blank text has no sentences, no paragraphs and no words, so both averages and the transition ratio are 0. */
  lemma BlankTextHasNoPieces(content: string)
    requires IsBlank(content)
    ensures Sentences(content) == [] && Paragraphs(content) == []
    ensures AverageWords(Sentences(content)) == 0.0 && AverageWords(Paragraphs(content)) == 0.0
    ensures TransitionRatio(content) == 0.0
  {
    assert NoSentenceEnd(content);
    SentencesWithoutEnds(content);
    ParagraphsHoldAllWords(content);
    WordsEmptyIffBlank(content);
    StrippedPiecesHaveWords(SplitOn(content, ParagraphBreak));
  }

  // ---------------------------------------------------------------------
  // Transition words
  // ---------------------------------------------------------------------

  /** The one-word entries of the transition list. */
  const SingleWordTransitions: seq<string> := [
    "however", "therefore", "furthermore", "moreover", "additionally",
    "consequently", "meanwhile", "nevertheless", "specifically"]

  /** The phrase entries of the transition list, each with a space inside. */
  const PhraseTransitions: seq<string> := [
    "for example", "in addition", "as a result", "on the other hand", "in contrast"]

  /** The fourteen transition words and phrases, in the order they are listed. */
  const TransitionWords: seq<string> := SingleWordTransitions + PhraseTransitions

  predicate IsTrailingPunctuation(c: char) {
    c == '.' || c == ',' || c == '!' || c == '?'
  }

  /** `s.rstrip('.,!?')` */
  function TrimTrailingPunctuation(s: string): (r: string)
    ensures r <= s
    ensures forall i :: |r| <= i < |s| ==> IsTrailingPunctuation(s[i])
    ensures r == [] || !IsTrailingPunctuation(r[|r| - 1])
    decreases |s|
  {
    if s != [] && IsTrailingPunctuation(s[|s| - 1]) then TrimTrailingPunctuation(s[..|s| - 1]) else s
  }

  /** `word.lower().rstrip('.,!?') in transition_words` */
  predicate IsTransition(word: string) {
    TrimTrailingPunctuation(Lower(word)) in TransitionWords
  }

  /**
   * A whitespace-separated word has no space in it, so only the one-word
   * entries of the list can ever match; "for example" and the other phrases
   * are never counted.
   */
  lemma OnlySingleWordTransitionsMatch(word: string)
    requires IsToken(word)
    requires IsTransition(word)
    ensures TrimTrailingPunctuation(Lower(word)) in SingleWordTransitions
  {
    var t := TrimTrailingPunctuation(Lower(word));
    assert forall i :: 0 <= i < |t| ==> t[i] == Lower(word)[i];
    assert ' ' !in t;
    PhrasesHaveSpaces();
    assert t !in PhraseTransitions;
  }

  /** Each phrase transition holds a space; `OnlySingleWordTransitionsMatch` needs this. */
  lemma PhrasesHaveSpaces()
    ensures forall k :: 0 <= k < |PhraseTransitions| ==> ' ' in PhraseTransitions[k]
  {
    assert PhraseTransitions[0][3] == ' ' && PhraseTransitions[1][2] == ' ';
    assert PhraseTransitions[2][2] == ' ' && PhraseTransitions[3][2] == ' ';
    assert PhraseTransitions[4][2] == ' ';
  }

  /** `sum(1 for word in words if <word is a transition>)` */
  function TransitionCount(words: seq<string>): (n: nat)
    ensures n <= |words|
    decreases |words|
  {
    if words == [] then 0 else (if IsTransition(words[0]) then 1 else 0) + TransitionCount(words[1..])
  }

  /** `(transition_count / len(words)) * 100 if words else 0` */
  function TransitionRatio(content: string): (r: real)
    ensures 0.0 <= r <= 100.0
    ensures Words(content) == [] ==> r == 0.0
  {
    var words := Words(content);
    if words == [] then 0.0
    else
      var n := TransitionCount(words);
      RatioAtMostOne(n, |words|);
      (n as real / |words| as real) * 100.0
  }

  /** A count no larger than its total is a fraction in [0, 1]; `TransitionRatio` needs this for its bound. */
  lemma RatioAtMostOne(n: nat, d: nat)
    requires 0 < d && n <= d
    ensures 0.0 <= n as real / d as real <= 1.0
  {
  }

  // ---------------------------------------------------------------------
  // The score
  // ---------------------------------------------------------------------

  datatype Level = Excellent | Good | Fair | NeedsImprovement

  /**
   * The points of `_calculate_readability_score` before they are bucketed:
   * never more than 120 (100 plus the transition bonus capped at 20), and the
   * full 100 at least while both lengths are within their limits.
   */
  function ReadabilityPoints(sentenceLen: real, paraLen: real, transitionRatio: real): (p: real)
    ensures p <= 120.0
    ensures sentenceLen <= 20.0 && paraLen <= 150.0 ==> p >= 100.0
  {
    var afterSentences := if sentenceLen > 20.0 then 100.0 - (sentenceLen - 20.0) * 2.0 else 100.0;
    var afterParagraphs := if paraLen > 150.0 then afterSentences - (paraLen - 150.0) * 0.5 else afterSentences;
    if transitionRatio > 1.0 then
      afterParagraphs + (if transitionRatio * 5.0 < 20.0 then transitionRatio * 5.0 else 20.0)
    else afterParagraphs
  }

  /** The bucket of a point score. */
  function LevelOf(points: real): (l: Level)
    ensures l == Excellent <==> points >= 80.0
    ensures l == Good <==> 60.0 <= points < 80.0
    ensures l == Fair <==> 40.0 <= points < 60.0
    ensures l == NeedsImprovement <==> points < 40.0
  {
    if points >= 80.0 then Excellent
    else if points >= 60.0 then Good
    else if points >= 40.0 then Fair
    else NeedsImprovement
  }

  /** `_calculate_readability_score`: texts within both length limits are excellent whatever their transitions. */
  function CalculateReadabilityScore(sentenceLen: real, paraLen: real, transitionRatio: real): (l: Level)
    ensures sentenceLen <= 20.0 && paraLen <= 150.0 ==> l == Excellent
  {
    LevelOf(ReadabilityPoints(sentenceLen, paraLen, transitionRatio))
  }

  /** Example: 30 words per sentence, 100 per paragraph, no transitions give exactly 80 points. */
  lemma ThirtyWordSentencesAreStillExcellent()
    ensures ReadabilityPoints(30.0, 100.0, 0.0) == 80.0
    ensures CalculateReadabilityScore(30.0, 100.0, 0.0) == Excellent
    ensures CalculateReadabilityScore(31.0, 100.0, 0.0) == Good
  {
  }

  /** How good a bucket is, higher is better. */
  function Rank(l: Level): nat {
    match l
    case Excellent => 3
    case Good => 2
    case Fair => 1
    case NeedsImprovement => 0
  }

  /**
   * Shorter sentences, shorter paragraphs and more transitions never make the
   * points, nor so the bucket, worse.
   */
  lemma ScoreMonotone(s: real, p: real, r: real, s': real, p': real, r': real)
    requires s' <= s && p' <= p && r <= r'
    ensures ReadabilityPoints(s', p', r') >= ReadabilityPoints(s, p, r)
    ensures Rank(CalculateReadabilityScore(s', p', r')) >= Rank(CalculateReadabilityScore(s, p, r))
  {
  }

  // ---------------------------------------------------------------------
  // The analysis
  // ---------------------------------------------------------------------

  const BreakLongSentences := "Break down long sentences for better readability"
  const ShortenParagraphs := "Shorten paragraphs - aim for 100-150 words per paragraph"
  const AddTransitions := "Add more transition words to improve flow"

  /** The suggestions of `_improve_readability`, in the order they are appended. */
  function ReadabilitySuggestions(sentenceLen: real, paraLen: real, transitionRatio: real): seq<string> {
    (if sentenceLen > 20.0 then [BreakLongSentences] else [])
    + (if paraLen > 150.0 then [ShortenParagraphs] else [])
    + (if transitionRatio < 1.0 then [AddTransitions] else [])
  }

  /** Each of the three suggestions fires on its own condition, independently of the others. */
  lemma SuggestionsFireIndependently(sentenceLen: real, paraLen: real, transitionRatio: real)
    ensures var r := ReadabilitySuggestions(sentenceLen, paraLen, transitionRatio);
            && (BreakLongSentences in r <==> sentenceLen > 20.0)
            && (ShortenParagraphs in r <==> paraLen > 150.0)
            && (AddTransitions in r <==> transitionRatio < 1.0)
            && |r| <= 3
  {
  }

  datatype ReadabilityReport = ReadabilityReport(
    readabilityScore: Level,
    avgSentenceLength: real,
    avgParagraphLength: real,
    transitionWordRatio: real,
    suggestions: seq<string>)

  function ReadabilityOf(content: string): (r: ReadabilityReport)
    ensures r.avgSentenceLength >= 0.0 && r.avgParagraphLength >= 0.0
    ensures 0.0 <= r.transitionWordRatio <= 100.0
  {
    var s := AverageWords(Sentences(content));
    var p := AverageWords(Paragraphs(content));
    var t := TransitionRatio(content);
    ReadabilityReport(CalculateReadabilityScore(s, p, t), s, p, t, ReadabilitySuggestions(s, p, t))
  }

  /** A text that is blank gets no transition credit, so it is told to add transitions. */
  lemma BlankTextNeedsTransitions(content: string)
    requires IsBlank(content)
    ensures AddTransitions in ReadabilityOf(content).suggestions
    ensures ReadabilityOf(content).readabilityScore == Excellent
  {
    WordsEmptyIffBlank(content);
    BlankTextHasNoPieces(content);
  }

  /** `_improve_readability`: computes the three measures and appends the suggestions that apply. */
  method ImproveReadability(content: string) returns (r: ReadabilityReport)
    ensures r == ReadabilityOf(content)
  {
    var sentences := Sentences(content);
    var paragraphs := Paragraphs(content);
    var avgSentenceLength := AverageWords(sentences);
    var avgParagraphLength := AverageWords(paragraphs);
    var transitionRatio := TransitionRatio(content);
    var score := CalculateReadabilityScore(avgSentenceLength, avgParagraphLength, transitionRatio);
    var suggestions: seq<string> := [];
    if avgSentenceLength > 20.0 {
      suggestions := suggestions + [BreakLongSentences];
    }
    assert suggestions == if avgSentenceLength > 20.0 then [BreakLongSentences] else [];
    if avgParagraphLength > 150.0 {
      suggestions := suggestions + [ShortenParagraphs];
    }
    assert suggestions == (if avgSentenceLength > 20.0 then [BreakLongSentences] else [])
                          + (if avgParagraphLength > 150.0 then [ShortenParagraphs] else []);
    if transitionRatio < 1.0 {
      suggestions := suggestions + [AddTransitions];
    }
    assert suggestions == ReadabilitySuggestions(avgSentenceLength, avgParagraphLength, transitionRatio);
    r := ReadabilityReport(score, avgSentenceLength, avgParagraphLength, transitionRatio, suggestions);
  }
}

=== FILE: seo_scoring.dfy ===
/**
 * The aggregate SEO score: five point buckets (title, meta description,
 * keyword usage, content length, headings), their total out of 100 and the
 * letter grade of the total.
 */
module SeoScoring {
  import opened Text
  import opened WordMatch
  import opened Content
  import opened FieldOptimizer
  import opened KeywordDensity

  const MaxScore := 100

  /** `any(kw.lower() in field.lower() for kw in keywords)`, over the whole list. */
  function AnyKeywordIn(field: string, keywords: seq<string>): (b: bool)
    ensures b <==> exists k :: 0 <= k < |keywords| && Contains(Lower(field), Lower(keywords[k]))
  {
    AnyIn(Lower(field), LowerAll(keywords))
  }

  /** Title points: 25 for one of the first two keywords, 15 for a later one, 0 otherwise. */
  function TitlePoints(title: string, keywords: seq<string>): (p: nat)
    ensures p == 25 <==> KeywordPresent(title, keywords)
    ensures p == 15 <==> !KeywordPresent(title, keywords) && AnyKeywordIn(title, keywords)
    ensures p == 0 <==> !AnyKeywordIn(title, keywords)
  {
    if KeywordPresent(title, keywords) then 25
    else if AnyKeywordIn(title, keywords) then 15
    else 0
  }

  /** Meta points: 20 for a keyword within the 120..160 band, 10 for a keyword outside it. */
  function MetaPoints(meta: string, keywords: seq<string>): (p: nat)
    ensures p == 20 <==> MetaMin <= |meta| <= MetaMax && AnyKeywordIn(meta, keywords)
    ensures p == 10 <==> !(MetaMin <= |meta| <= MetaMax) && AnyKeywordIn(meta, keywords)
    ensures p == 0 <==> !AnyKeywordIn(meta, keywords)
  {
    if MetaMin <= |meta| <= MetaMax && AnyKeywordIn(meta, keywords) then 20
    else if AnyKeywordIn(meta, keywords) then 10
    else 0
  }

  /**
   * Content-length points from the supplied word count: 20 for 1500..3000
   * inclusive, 15 for 1000..1499, 10 above 3000 (3000 itself already took
   * the first branch), 0 below 1000.
   */
  function ContentLengthPoints(wordCount: nat): (p: nat)
    ensures p == 20 <==> 1500 <= wordCount <= 3000
    ensures p == 15 <==> 1000 <= wordCount < 1500
    ensures p == 10 <==> wordCount > 3000
    ensures p == 0 <==> wordCount < 1000
  {
    if 1500 <= wordCount <= 3000 then 20
    else if 1000 <= wordCount < 1500 then 15
    else if wordCount >= 3000 then 10
    else 0
  }

  /** Density of the primary keyword against the supplied word count, not the text's own. */
  function PrimaryDensity(text: string, wordCount: nat, keywords: seq<string>): real {
    DensityPercent(WholeWordCount(text, PrimaryKeyword(keywords)), wordCount)
  }

  /** Keyword-usage points: 25 for a density in [1, 3], 15 in [0.5, 1) or (3, 4], else 0. */
  function KeywordUsagePoints(text: string, wordCount: nat, keywords: seq<string>): (p: nat)
    ensures p == 0 || p == 15 || p == 25
    ensures PrimaryKeyword(keywords) == [] ==> p == 0
  {
    if PrimaryKeyword(keywords) == [] then 0
    else
      var density := PrimaryDensity(text, wordCount, keywords);
      if 1.0 <= density <= 3.0 then 25
      else if 0.5 <= density < 1.0 || 3.0 < density <= 4.0 then 15
      else 0
  }

  const HeadingMark := "##"

  /** Heading points from `full_text.count("##")`: 10 for three or more, 5 for one or two. */
  function HeadingsPoints(text: string): (p: nat)
    ensures p == 10 <==> CountOf(text, HeadingMark) >= 3
    ensures p == 5 <==> 1 <= CountOf(text, HeadingMark) < 3
    ensures p == 0 <==> !Contains(text, HeadingMark)
  {
    CountOfPositiveIff(text, HeadingMark);
    var n := CountOf(text, HeadingMark);
    if n >= 3 then 10 else if n >= 1 then 5 else 0
  }

  datatype ScoreComponents = ScoreComponents(
    titleOptimization: nat,
    metaDescription: nat,
    keywordUsage: nat,
    contentLength: nat,
    headingsStructure: nat)

  /** `sum(score_components.values())` */
  function Total(c: ScoreComponents): nat {
    c.titleOptimization + c.metaDescription + c.keywordUsage + c.contentLength + c.headingsStructure
  }

  datatype Grade = A | B | C | D | F

  /** `_get_seo_grade` */
  function GradeOf(score: int): (g: Grade)
    ensures g == A <==> score >= 90
    ensures g == B <==> 80 <= score < 90
    ensures g == C <==> 70 <= score < 80
    ensures g == D <==> 60 <= score < 70
    ensures g == F <==> score < 60
  {
    if score >= 90 then A
    else if score >= 80 then B
    else if score >= 70 then C
    else if score >= 60 then D
    else F
  }

  datatype SeoScore = SeoScore(
    totalScore: nat,
    maxScore: nat,
    percentage: real,
    components: ScoreComponents,
    grade: Grade)

  function ComponentsOf(content: ContentRecord, keywords: seq<string>): ScoreComponents {
    ScoreComponents(
      TitlePoints(content.title, keywords),
      MetaPoints(content.metaDescription, keywords),
      KeywordUsagePoints(content.fullText, content.wordCount, keywords),
      ContentLengthPoints(content.wordCount),
      HeadingsPoints(content.fullText))
  }

  /**
   * The result of `_calculate_seo_score`. The total is the sum of the five
   * buckets and never exceeds 100, so the percentage (total out of 100) is
   * the total itself.
   */
  function SeoScoreOf(content: ContentRecord, keywords: seq<string>): (s: SeoScore)
    ensures s.totalScore == Total(s.components) <= s.maxScore == MaxScore
    ensures s.percentage == s.totalScore as real
    ensures s.grade == GradeOf(s.totalScore)
  {
    var c := ComponentsOf(content, keywords);
    var total := Total(c);
    SeoScore(total, MaxScore, (total as real / 100.0) * 100.0, c, GradeOf(total))
  }

  /** The `title_optimization` branch of `_calculate_seo_score`. */
  method ScoreTitle(title: string, keywords: seq<string>) returns (points: nat)
    ensures points == TitlePoints(title, keywords)
  {
    points := 0;
    if KeywordPresent(title, keywords) {
      points := 25;
    } else if AnyKeywordIn(title, keywords) {
      points := 15;
    }
  }

  /** The `meta_description` branch of `_calculate_seo_score`. */
  method ScoreMeta(meta: string, keywords: seq<string>) returns (points: nat)
    ensures points == MetaPoints(meta, keywords)
  {
    points := 0;
    if MetaMin <= |meta| <= MetaMax && AnyKeywordIn(meta, keywords) {
      points := 20;
    } else if AnyKeywordIn(meta, keywords) {
      points := 10;
    }
  }

  /** The `content_length` branch of `_calculate_seo_score`. */
  method ScoreContentLength(wordCount: nat) returns (points: nat)
    ensures points == ContentLengthPoints(wordCount)
  {
    points := 0;
    if 1500 <= wordCount <= 3000 {
      points := 20;
    } else if 1000 <= wordCount < 1500 {
      points := 15;
    } else if wordCount >= 3000 {
      points := 10;
    }
  }

  /** The `keyword_usage` branch of `_calculate_seo_score`. */
  method ScoreKeywordUsage(text: string, wordCount: nat, keywords: seq<string>) returns (points: nat)
    ensures points == KeywordUsagePoints(text, wordCount, keywords)
  {
    points := 0;
    var primary := if keywords != [] then keywords[0] else "";
    if primary != "" {
      var keywordCount := WholeWordCount(text, primary);
      var density := DensityPercent(keywordCount, wordCount);
      if 1.0 <= density <= 3.0 {
        points := 25;
      } else if 0.5 <= density < 1.0 || 3.0 < density <= 4.0 {
        points := 15;
      }
    }
  }

  /** The `headings_structure` branch of `_calculate_seo_score`. */
  method ScoreHeadings(text: string) returns (points: nat)
    ensures points == HeadingsPoints(text)
  {
    points := 0;
    var headings := CountOf(text, HeadingMark);
    if headings >= 3 {
      points := 10;
    } else if headings >= 1 {
      points := 5;
    }
  }

  /**
   * `_calculate_seo_score`: starts every component at 0, overwrites each with
   * the points its branch awards, then sums them.
   */
  method CalculateSeoScore(content: ContentRecord, keywords: seq<string>) returns (s: SeoScore)
    ensures s == SeoScoreOf(content, keywords)
  {
    var components := ScoreComponents(0, 0, 0, 0, 0);
    var points := ScoreTitle(content.title, keywords);
    components := components.(titleOptimization := points);
    points := ScoreMeta(content.metaDescription, keywords);
    components := components.(metaDescription := points);
    points := ScoreContentLength(content.wordCount);
    components := components.(contentLength := points);
    points := ScoreKeywordUsage(content.fullText, content.wordCount, keywords);
    components := components.(keywordUsage := points);
    points := ScoreHeadings(content.fullText);
    components := components.(headingsStructure := points);
    var totalScore := Total(components);
    s := SeoScore(totalScore, MaxScore, (totalScore as real / 100.0) * 100.0, components, GradeOf(totalScore));
  }

  // ---------------------------------------------------------------------
  // Properties
  // ---------------------------------------------------------------------

  /** The total is the sum of buckets bounded by 25, 20, 25, 20 and 10. */
  lemma ComponentsBounded(content: ContentRecord, keywords: seq<string>)
    ensures var c := SeoScoreOf(content, keywords).components;
            && c.titleOptimization in {0, 15, 25}
            && c.metaDescription in {0, 10, 20}
            && c.keywordUsage in {0, 15, 25}
            && c.contentLength in {0, 10, 15, 20}
            && c.headingsStructure in {0, 5, 10}
  {
  }

  /**
   * The optimised title always earns the full 25 title points when there is a
   * primary keyword (that does not end in whitespace).
   */
  lemma OptimizedTitleEarnsFullPoints(title: string, keywords: seq<string>)
    requires PrimaryKeyword(keywords) != []
    requires var kw := PrimaryKeyword(keywords); !IsSpace(kw[|kw| - 1])
    ensures TitlePoints(OptimizedTitle(title, keywords), keywords) == 25
  {
    if NeedsKeyword(title, keywords) {
      InsertedTitleContainsKeyword(title, PrimaryKeyword(keywords));
      PresentWhenPrimaryContained(OptimizedTitle(title, keywords), keywords);
    }
  }

  /**
   * The optimised meta description always earns keyword points when there is
   * a primary keyword, and the full 20 when the keyword-prefixed form falls
   * in the length band.
   */
  lemma OptimizedMetaEarnsKeywordPoints(meta: string, keywords: seq<string>)
    requires PrimaryKeyword(keywords) != []
    ensures MetaPoints(OptimizedMeta(meta, keywords), keywords) >= 10
    ensures NeedsKeyword(meta, keywords) && MetaMin <= |PrimaryKeyword(keywords)| + 2 + |meta| <= MetaMax
            ==> MetaPoints(OptimizedMeta(meta, keywords), keywords) == 20
  {
    var optimized := OptimizedMeta(meta, keywords);
    if NeedsKeyword(meta, keywords) {
      InsertedMetaContainsKeyword(meta, keywords[0]);
      assert Contains(Lower(optimized), Lower(keywords[0]));
    } else {
      assert KeywordPresent(meta, keywords);
    }
  }

  /**
   * With the supplied word count equal to the text's own, keyword usage earns
   * the full 25 points exactly when the density analysis rates the primary
   * keyword optimal: the two measure the same density against the same (1, 3)
   * range.
   */
  lemma KeywordUsageAgreesWithAnalysis(content: ContentRecord, keywords: seq<string>, i: nat)
    requires keywords != [] && keywords[0] != []
    requires content.wordCount == WordCount(content.fullText)
    requires var a := AnalysisOf(content.fullText, keywords); i < |a| && a[i].0 == keywords[0]
    ensures KeywordUsagePoints(content.fullText, content.wordCount, keywords) == 25
            <==> AnalysisOf(content.fullText, keywords)[i].1.status == Optimal
  {
    AnalysisOfShape(content.fullText, keywords);
  }

  /**
   * `str.count("##")` also counts deeper headings: "###" counts once and
   * "####" twice, so a single level-four heading already scores.
   */
  lemma DeeperHeadingsCount()
    ensures CountOf("###", HeadingMark) == 1
    ensures CountOf("####", HeadingMark) == 2
    ensures HeadingsPoints("####") == 5
  {
    assert "##" <= "###";
    assert "##" <= "####" && "##" <= "##";
  }

  /** Examples of the length and grade boundaries. */
  lemma BoundaryExamples()
    ensures ContentLengthPoints(3000) == 20 && ContentLengthPoints(3001) == 10
    ensures ContentLengthPoints(1499) == 15 && ContentLengthPoints(999) == 0
    ensures GradeOf(90) == A && GradeOf(89) == B && GradeOf(59) == F
  {
  }
}

=== FILE: technical_seo.dfy ===
/**
 * The technical checklist: four pass/fail checks on the title length, the
 * meta-description length, the supplied word count and the `##` count, the
 * number that pass and the "passed/total" score text.
 */
module TechnicalSeo {
  import opened Text
  import opened Content
  import opened FieldOptimizer
  import opened SeoScoring

  const MinWordCount := 1000
  const MinHeadings := 2

  datatype CheckStatus = Pass | Fail

  /** One entry of `checks`: its `status` and the measured `value`. */
  datatype Check = Check(status: CheckStatus, value: nat)

  function CheckOf(passes: bool, value: nat): Check {
    Check(if passes then Pass else Fail, value)
  }

  datatype TechnicalReport = TechnicalReport(
    titleLength: Check,
    metaDescriptionLength: Check,
    contentLength: Check,
    headingStructure: Check,
    passed: nat,
    total: nat,
    score: string)

  /** `checks.values()`, in the order the dict literal lists them. */
  function Checks(r: TechnicalReport): seq<Check> {
    [r.titleLength, r.metaDescriptionLength, r.contentLength, r.headingStructure]
  }

  /** `sum(1 for check in checks if check["status"] == "pass")` */
  function PassCount(cs: seq<Check>): (n: nat)
    ensures n <= |cs|
    ensures n == |cs| <==> forall k :: 0 <= k < |cs| ==> cs[k].status == Pass
    ensures n == 0 <==> forall k :: 0 <= k < |cs| ==> cs[k].status == Fail
    decreases |cs|
  {
    if cs == [] then 0 else (if cs[0].status == Pass then 1 else 0) + PassCount(cs[1..])
  }

  /** `f"{passed}/{total}"` */
  function ScoreText(passed: nat, total: nat): string {
    NatToString(passed) + "/" + NatToString(total)
  }

  /** `_check_technical_seo` */
  function CheckTechnicalSeo(content: ContentRecord): (r: TechnicalReport)
    ensures r.total == |Checks(r)| == 4
    ensures r.passed == PassCount(Checks(r)) <= r.total
    ensures r.score == ScoreText(r.passed, r.total)
    ensures r.titleLength.value == |content.title|
    ensures r.titleLength.status == Pass <==> TitleMin <= |content.title| <= TitleMax
    ensures r.metaDescriptionLength.value == |content.metaDescription|
    ensures r.metaDescriptionLength.status == Pass <==> MetaMin <= |content.metaDescription| <= MetaMax
    ensures r.contentLength.value == content.wordCount
    ensures r.contentLength.status == Pass <==> content.wordCount >= MinWordCount
    ensures r.headingStructure.value == CountOf(content.fullText, HeadingMark)
    ensures r.headingStructure.status == Pass <==> CountOf(content.fullText, HeadingMark) >= MinHeadings
  {
    var titleLength := CheckOf(TitleMin <= |content.title| <= TitleMax, |content.title|);
    var metaLength := CheckOf(MetaMin <= |content.metaDescription| <= MetaMax, |content.metaDescription|);
    var contentLength := CheckOf(content.wordCount >= MinWordCount, content.wordCount);
    var headings := CountOf(content.fullText, HeadingMark);
    var headingStructure := CheckOf(headings >= MinHeadings, headings);
    var checks := [titleLength, metaLength, contentLength, headingStructure];
    var passed := PassCount(checks);
    TechnicalReport(titleLength, metaLength, contentLength, headingStructure, passed, |checks|,
                    ScoreText(passed, |checks|))
  }

  /** Every check passes exactly when all four conditions hold. */
  lemma AllChecksPass(content: ContentRecord)
    ensures CheckTechnicalSeo(content).passed == 4
            <==> && TitleMin <= |content.title| <= TitleMax
                 && MetaMin <= |content.metaDescription| <= MetaMax
                 && content.wordCount >= MinWordCount
                 && CountOf(content.fullText, HeadingMark) >= MinHeadings
  {
    var cs := Checks(CheckTechnicalSeo(content));
    assert (forall k :: 0 <= k < |cs| ==> cs[k].status == Pass)
           <==> cs[0].status == Pass && cs[1].status == Pass && cs[2].status == Pass && cs[3].status == Pass;
  }

  /** The score text reads back as the two counts either side of its slash. */
  lemma ScoreTextReadsBack(passed: nat, total: nat)
    ensures var s, i := ScoreText(passed, total), |NatToString(passed)|;
            && i < |s| && s[i] == '/' && '/' !in s[..i]
            && s[..i] == NatToString(passed) && s[i + 1..] == NatToString(total)
            && ParseNat(s[..i]) == passed && ParseNat(s[i + 1..]) == total
  {
    var s, i := ScoreText(passed, total), |NatToString(passed)|;
    assert s[..i] == NatToString(passed);
    assert s[i + 1..] == NatToString(total);
    ParseNatToString(passed);
    ParseNatToString(total);
  }

  /**
   * The checklist and the score agree: the content-length check passes
   * exactly when the length bucket earns points, three headings for the full
   * heading points pass the two-heading check, and a passing check earns at
   * least half the heading points.
   */
  lemma ChecklistAgreesWithScore(content: ContentRecord, keywords: seq<string>)
    ensures var r := CheckTechnicalSeo(content);
            && (r.contentLength.status == Pass <==> ContentLengthPoints(content.wordCount) >= 10)
            && (HeadingsPoints(content.fullText) == 10 ==> r.headingStructure.status == Pass)
            && (r.headingStructure.status == Pass ==> HeadingsPoints(content.fullText) >= 5)
            && (r.metaDescriptionLength.status == Pass && AnyKeywordIn(content.metaDescription, keywords)
                ==> MetaPoints(content.metaDescription, keywords) == 20)
  {
  }
}

=== FILE: text.dfy ===
/**
 * Models of the Python string built-ins the SEO editor relies on:
 * `str.isspace`, `str.lower`, the `in` operator on strings, `str.strip`,
 * `str.split()`, `str.split(sep)`, `re.split(r'[.!?]+', s)`, `str.count`,
 * slicing with `[:n]` and `str(n)` for natural numbers.
 */
module Text {

  // ---------------------------------------------------------------------
  // Characters
  // ---------------------------------------------------------------------

  /** Python's `str.isspace` for one character. */
  predicate IsSpace(c: char) {
    c == ' ' || '\t' <= c <= '\r' || '\U{1C}' <= c <= '\U{1F}'
    || c == '\U{85}' || c == '\U{A0}' || c == '\U{1680}'
    || '\U{2000}' <= c <= '\U{200A}' || c == '\U{2028}' || c == '\U{2029}'
    || c == '\U{202F}' || c == '\U{205F}' || c == '\U{3000}'
  }

  /** True of the strings Python's `s.strip()` turns into "". */
  predicate IsBlank(s: string) {
    forall i :: 0 <= i < |s| ==> IsSpace(s[i])
  }

  /** `str.lower` on one character (ASCII letters only). */
  function LowerChar(c: char): (d: char)
    ensures IsSpace(d) == IsSpace(c)
    ensures !('A' <= d <= 'Z')
  {
    if 'A' <= c <= 'Z' then (c as int + 32) as char else c
  }

  function Lower(s: string): (r: string)
    ensures |r| == |s|
    ensures forall i :: 0 <= i < |s| ==> r[i] == LowerChar(s[i])
  {
    seq(|s|, i requires 0 <= i < |s| => LowerChar(s[i]))
  }

  lemma LowerAppend(a: string, b: string)
    ensures Lower(a + b) == Lower(a) + Lower(b)
  {
  }

  lemma LowerSlice(s: string, i: nat, j: nat)
    requires i <= j <= |s|
    ensures Lower(s[i..j]) == Lower(s)[i..j]
  {
  }

  // ---------------------------------------------------------------------
  // Slicing and substrings
  // ---------------------------------------------------------------------

  function Min(a: int, b: int): int { if a < b then a else b }

  /** Python's `s[:n]` for a non-negative `n`. */
  function Take<T>(s: seq<T>, n: nat): (r: seq<T>)
    ensures |r| == Min(|s|, n)
    ensures r <= s
  {
    if |s| <= n then s else s[..n]
  }

  /** Python's `needle in hay` on strings. */
  function Contains(hay: string, needle: string): bool
    decreases |hay|
  {
    needle <= hay || (hay != [] && Contains(hay[1..], needle))
  }

  /** An occurrence at position `i` is enough for `in`. */
  lemma {:induction false} ContainsAt(hay: string, needle: string, i: nat)
    requires i + |needle| <= |hay| && hay[i..i + |needle|] == needle
    ensures Contains(hay, needle)
  {
    if i == 0 {
      assert needle == hay[..|needle|];
    } else {
      assert hay[1..][i - 1..i - 1 + |needle|] == needle;
      ContainsAt(hay[1..], needle, i - 1);
    }
  }

  /** A needle longer than the haystack never occurs in it. */
  lemma {:induction false} NoRoomNoContains(hay: string, needle: string)
    requires |hay| < |needle|
    ensures !Contains(hay, needle)
    decreases |hay|
  {
    if hay != [] {
      NoRoomNoContains(hay[1..], needle);
    }
  }

  /** A needle whose first character never occurs in the haystack does not occur either. */
  lemma {:induction false} MissingFirstCharNoContains(hay: string, needle: string)
    requires needle != [] && needle[0] !in hay
    ensures !Contains(hay, needle)
    decreases |hay|
  {
    if hay != [] {
      assert hay[0] in hay;
      assert hay[1..] <= hay[1..] && forall c :: c in hay[1..] ==> c in hay;
      MissingFirstCharNoContains(hay[1..], needle);
    }
  }

  /** Conversely, `in` always has a witness position. */
  lemma {:induction false} ContainsWitness(hay: string, needle: string) returns (i: nat)
    requires Contains(hay, needle)
    ensures i + |needle| <= |hay| && hay[i..i + |needle|] == needle
  {
    if needle <= hay {
      i := 0;
    } else {
      var j := ContainsWitness(hay[1..], needle);
      i := j + 1;
      assert hay[i..i + |needle|] == hay[1..][j..j + |needle|];
    }
  }

  /** Lower-casing the haystack and the needle preserves an occurrence. */
  lemma ContainsLowerOf(prefix: string, needle: string, suffix: string)
    ensures Contains(Lower(prefix + needle + suffix), Lower(needle))
  {
    var s := prefix + needle + suffix;
    assert s[|prefix|..|prefix| + |needle|] == needle;
    LowerSlice(s, |prefix|, |prefix| + |needle|);
    ContainsAt(Lower(s), Lower(needle), |prefix|);
  }

  /** Python's `any(n in hay for n in needles)`. */
  function AnyIn(hay: string, needles: seq<string>): (b: bool)
    ensures b <==> exists k :: 0 <= k < |needles| && Contains(hay, needles[k])
  {
    if needles == [] then false
    else if Contains(hay, needles[0]) then true
    else
      assert forall k :: 1 <= k < |needles| ==> needles[k] == needles[1..][k - 1];
      AnyIn(hay, needles[1..])
  }

  /** `[s.lower() for s in ss]` */
  function LowerAll(ss: seq<string>): (r: seq<string>)
    ensures |r| == |ss|
    ensures forall k :: 0 <= k < |ss| ==> r[k] == Lower(ss[k])
  {
    seq(|ss|, k requires 0 <= k < |ss| => Lower(ss[k]))
  }

  /** Python's `s.index(c)`, the position of the first `c` in `s`. */
  function FirstIndex(s: string, c: char): (i: nat)
    requires c in s
    ensures i < |s| && s[i] == c && c !in s[..i]
  {
    if s[0] == c then 0
    else
      var j := FirstIndex(s[1..], c);
      assert s[..j + 1] == [s[0]] + s[1..][..j];
      j + 1
  }

  // ---------------------------------------------------------------------
  // strip()
  // ---------------------------------------------------------------------

  function LStrip(s: string): string
    decreases |s|
  {
    if s != [] && IsSpace(s[0]) then LStrip(s[1..]) else s
  }

  function RStrip(s: string): string
    decreases |s|
  {
    if s != [] && IsSpace(s[|s| - 1]) then RStrip(s[..|s| - 1]) else s
  }

  /** Python's `s.strip()` with no argument. */
  function Strip(s: string): string {
    RStrip(LStrip(s))
  }

  /** A string that neither starts nor ends with whitespace is its own strip. */
  lemma StripKeepsTrimmed(s: string)
    requires s != [] && !IsSpace(s[0]) && !IsSpace(s[|s| - 1])
    ensures Strip(s) == s
  {
    assert LStrip(s) == s;
  }

  /** `lstrip` removes a blank prefix and nothing more. */
  lemma {:induction false} LStripSplit(s: string) returns (k: nat)
    ensures k <= |s| && LStrip(s) == s[k..]
    ensures IsBlank(s[..k])
    ensures k < |s| ==> !IsSpace(s[k])
  {
    if s != [] && IsSpace(s[0]) {
      var j := LStripSplit(s[1..]);
      k := j + 1;
      assert s[1..][j..] == s[k..];
      assert s[..k] == [s[0]] + s[1..][..j];
    } else {
      k := 0;
    }
  }

  /** `rstrip` removes a blank suffix and nothing more. */
  lemma {:induction false} RStripSplit(s: string) returns (k: nat)
    ensures k <= |s| && RStrip(s) == s[..k]
    ensures IsBlank(s[k..])
    ensures k > 0 ==> !IsSpace(s[k - 1])
  {
    if s != [] && IsSpace(s[|s| - 1]) {
      var t := s[..|s| - 1];
      k := RStripSplit(t);
      assert RStrip(s) == RStrip(t);
      assert t[..k] == s[..k];
      forall y | 0 <= y < |s| - k
        ensures IsSpace(s[k..][y])
      {
        if y < |t| - k {
          assert s[k..][y] == t[k..][y];
        }
      }
    } else {
      k := |s|;
    }
  }

  /** `rstrip` never eats into a prefix that ends with a non-space. */
  lemma {:induction false} RStripKeepsPrefix(s: string, n: nat)
    requires 0 < n <= |s| && !IsSpace(s[n - 1])
    ensures s[..n] <= RStrip(s)
  {
    if s != [] && IsSpace(s[|s| - 1]) {
      var t := s[..|s| - 1];
      assert t[..n] == s[..n];
      RStripKeepsPrefix(t, n);
    }
  }

  /**
   * Stripping `a + w + b` keeps all of `w` when `a` has a non-space character
   * and `w` ends with one.
   */
  lemma StripKeepsInfix(a: string, w: string, b: string, i: nat)
    requires i < |a| && !IsSpace(a[i])
    requires w != [] && !IsSpace(w[|w| - 1])
    ensures Contains(Lower(Strip(a + w + b)), Lower(w))
  {
    var s := a + w + b;
    var j := LStripSplit(s);
    assert forall x :: 0 <= x < j ==> IsSpace(s[x]) by {
      assert forall x :: 0 <= x < j ==> s[..j][x] == s[x];
    }
    assert s[i] == a[i];
    assert j <= i;
    var u := s[j..];
    assert Strip(s) == RStrip(u);
    var n := |a| + |w| - j;
    assert u[n - 1] == w[|w| - 1];
    RStripKeepsPrefix(u, n);
    var st := RStrip(u);
    assert st[..n] == u[..n];
    assert s[|a|..|a| + |w|] == w;
    assert u[|a| - j..n] == s[|a|..|a| + |w|];
    assert st == u[..|a| - j] + w + st[n..];
    ContainsLowerOf(u[..|a| - j], w, st[n..]);
  }

  // ---------------------------------------------------------------------
  // str.split() with no separator
  // ---------------------------------------------------------------------

  predicate IsToken(w: string) {
    w != [] && forall i :: 0 <= i < |w| ==> !IsSpace(w[i])
  }

  /** Length of the longest whitespace-free prefix. */
  function TokenLength(s: string): (n: nat)
    ensures n <= |s|
    ensures forall i :: 0 <= i < n ==> !IsSpace(s[i])
    ensures n < |s| ==> IsSpace(s[n])
    decreases |s|
  {
    if s == [] || IsSpace(s[0]) then 0 else 1 + TokenLength(s[1..])
  }

  /** Python's `s.split()`: the maximal runs of non-whitespace characters. */
  function Words(s: string): (ws: seq<string>)
    ensures forall k :: 0 <= k < |ws| ==> IsToken(ws[k])
    decreases |s|
  {
    if s == [] then []
    else if IsSpace(s[0]) then Words(s[1..])
    else
      var n := TokenLength(s);
      [s[..n]] + Words(s[n..])
  }

  /** A text without whitespace is one token to its end. */
  lemma {:induction false} TokenLengthOfToken(w: string)
    requires forall i :: 0 <= i < |w| ==> !IsSpace(w[i])
    ensures TokenLength(w) == |w|
    decreases |w|
  {
    if w != [] {
      assert forall i :: 0 <= i < |w| - 1 ==> w[1..][i] == w[i + 1];
      TokenLengthOfToken(w[1..]);
    }
  }

  /**
   * A whitespace-free word splits into exactly itself. With `WordsAfterBlank`
   * and `WordsAroundSpace` this fixes `Words` on every text: the words are the
   * maximal runs of non-whitespace, not any finer cut.
   */
  lemma TokenIsOneWord(w: string)
    requires IsToken(w)
    ensures Words(w) == [w]
  {
    TokenLengthOfToken(w);
    assert w[..|w|] == w && w[|w|..] == [];
  }

  /** A text has no words exactly when it is blank. */
  lemma {:induction false} WordsEmptyIffBlank(s: string)
    ensures Words(s) == [] <==> IsBlank(s)
    decreases |s|
  {
    if s != [] {
      WordsEmptyIffBlank(s[1..]);
      assert forall i :: 1 <= i < |s| ==> s[i] == s[1..][i - 1];
    }
  }

  /** A blank prefix contributes no words. */
  lemma {:induction false} WordsAfterBlank(t: string, b: string)
    requires IsBlank(t)
    ensures Words(t + b) == Words(b)
    decreases |t|
  {
    if t != [] {
      assert (t + b)[0] == t[0] && (t + b)[1..] == t[1..] + b;
      assert IsBlank(t[1..]) by {
        assert forall i :: 1 <= i < |t| ==> t[1..][i - 1] == t[i];
      }
      WordsAfterBlank(t[1..], b);
    } else {
      assert t + b == b;
    }
  }

  /** The token at the front of `a + [c] + b` ends inside `a` when `c` is whitespace. */
  lemma {:induction false} TokenLengthBeforeSpace(a: string, c: char, b: string)
    requires IsSpace(c)
    ensures TokenLength(a + [c] + b) == TokenLength(a)
    decreases |a|
  {
    if a != [] && !IsSpace(a[0]) {
      assert (a + [c] + b)[1..] == a[1..] + [c] + b;
      TokenLengthBeforeSpace(a[1..], c, b);
    }
  }

  /** Splitting on whitespace distributes over a whitespace character. */
  lemma {:induction false} WordsAroundSpace(a: string, c: char, b: string)
    requires IsSpace(c)
    ensures Words(a + [c] + b) == Words(a) + Words(b)
    decreases |a|
  {
    var s := a + [c] + b;
    if a == [] {
      assert s[0] == c && s[1..] == b;
    } else if IsSpace(a[0]) {
      assert s[0] == a[0] && s[1..] == a[1..] + [c] + b;
      WordsAroundSpace(a[1..], c, b);
    } else {
      TokenLengthBeforeSpace(a, c, b);
      var n := TokenLength(a);
      assert s[0] == a[0] && s[..n] == a[..n];
      assert s[n..] == a[n..] + [c] + b;
      WordsAroundSpace(a[n..], c, b);
      calc {
        Words(s);
        [s[..n]] + Words(s[n..]);
        [a[..n]] + (Words(a[n..]) + Words(b));
        ([a[..n]] + Words(a[n..])) + Words(b);
        Words(a) + Words(b);
      }
    }
  }

  /** ... and over any non-empty blank separator. */
  lemma WordsAroundBlank(a: string, sep: string, b: string)
    requires sep != [] && IsBlank(sep)
    ensures Words(a + sep + b) == Words(a) + Words(b)
  {
    assert a + sep + b == a + [sep[0]] + (sep[1..] + b);
    WordsAroundSpace(a, sep[0], sep[1..] + b);
    WordsAfterBlank(sep[1..], b);
  }

  /** Stripping a text does not change its words. */
  lemma WordsOfStrip(s: string)
    ensures Words(Strip(s)) == Words(s)
  {
    var k := LStripSplit(s);
    assert s == s[..k] + s[k..];
    WordsAfterBlank(s[..k], s[k..]);
    var t := s[k..];
    var m := RStripSplit(t);
    assert Strip(s) == t[..m];
    if m < |t| {
      WordsAroundBlank(t[..m], t[m..], []);
      assert t[..m] + t[m..] + [] == t;
      assert Words([]) == [];
    } else {
      assert t[..m] == t;
    }
  }

  /** A blank text strips to "", and only a blank text does. */
  lemma StripEmptyIffBlank(s: string)
    ensures Strip(s) == [] <==> IsBlank(s)
  {
    WordsOfStrip(s);
    WordsEmptyIffBlank(s);
    WordsEmptyIffBlank(Strip(s));
    var k := LStripSplit(s);
    var m := RStripSplit(s[k..]);
    if m > 0 {
      assert Strip(s)[m - 1] == s[k..][m - 1];
    }
  }

  // ---------------------------------------------------------------------
  // str.split(sep) and its inverse sep.join(parts)
  // ---------------------------------------------------------------------

  function SplitFrom(s: string, sep: string, piece: string): (parts: seq<string>)
    requires sep != []
    ensures |parts| >= 1
    decreases |s|
  {
    if s == [] then [piece]
    else if sep <= s then [piece] + SplitFrom(s[|sep|..], sep, [])
    else SplitFrom(s[1..], sep, piece + [s[0]])
  }

  /** The scan yields one piece more than there are separators ahead of it. */
  lemma {:induction false} SplitFromCount(s: string, sep: string, piece: string)
    requires sep != []
    ensures |SplitFrom(s, sep, piece)| == 1 + CountOf(s, sep)
    decreases |s|
  {
    if s != [] {
      if sep <= s {
        SplitFromCount(s[|sep|..], sep, []);
      } else {
        SplitFromCount(s[1..], sep, piece + [s[0]]);
        if |s| < |sep| {
          assert CountOf(s[1..], sep) == 0;
        }
      }
    }
  }

  /**
   * Python's `s.split(sep)`: scans left to right, occurrences do not overlap,
   * and there is one piece more than `s.count(sep)`.
   */
  function SplitOn(s: string, sep: string): (parts: seq<string>)
    requires sep != []
    ensures |parts| >= 1
    ensures |parts| == 1 + CountOf(s, sep)
  {
    SplitFromCount(s, sep, []);
    SplitFrom(s, sep, [])
  }

  /** Python's `sep.join(parts)`. */
  function Join(parts: seq<string>, sep: string): string
    decreases |parts|
  {
    if parts == [] then []
    else if |parts| == 1 then parts[0]
    else parts[0] + sep + Join(parts[1..], sep)
  }

  /** Joining a piece in front of at least one more part puts a separator between them. */
  lemma JoinCons(piece: string, rest: seq<string>, sep: string)
    requires rest != []
    ensures Join([piece] + rest, sep) == piece + sep + Join(rest, sep)
  {
    var parts := [piece] + rest;
    assert parts[0] == piece && parts[1..] == rest;
  }

  lemma {:induction false} JoinSplitFrom(s: string, sep: string, piece: string)
    requires sep != []
    ensures Join(SplitFrom(s, sep, piece), sep) == piece + s
    decreases |s|, 1
  {
    if s == [] {
    } else if sep <= s {
      JoinSplitAtSep(s, sep, piece);
    } else {
      JoinSplitFrom(s[1..], sep, piece + [s[0]]);
      assert piece + [s[0]] + s[1..] == piece + s;
    }
  }

  /** The step of `JoinSplitFrom` where the text starts with the separator. */
  lemma {:induction false} JoinSplitAtSep(s: string, sep: string, piece: string)
    requires sep != [] && s != [] && sep <= s
    ensures Join(SplitFrom(s, sep, piece), sep) == piece + s
    decreases |s|, 0
  {
    var tail := s[|sep|..];
    var rest := SplitFrom(tail, sep, []);
    JoinSplitFrom(tail, sep, []);
    JoinCons(piece, rest, sep);
    assert sep + tail == s;
    assert piece + sep + tail == piece + s;
  }

  /** Joining the pieces of a split with the same separator gives the text back. */
  lemma JoinSplit(s: string, sep: string)
    requires sep != []
    ensures Join(SplitOn(s, sep), sep) == s
  {
    JoinSplitFrom(s, sep, []);
  }

  /** Sum of the word counts of a list of strings. */
  function TotalWords(ss: seq<string>): nat
    decreases |ss|
  {
    if ss == [] then 0 else |Words(ss[0])| + TotalWords(ss[1..])
  }

  /** Joining with a blank separator adds the pieces' word counts. */
  lemma {:induction false} WordsOfJoin(parts: seq<string>, sep: string)
    requires sep != [] && IsBlank(sep)
    ensures |Words(Join(parts, sep))| == TotalWords(parts)
    decreases |parts|
  {
    if |parts| == 1 {
      assert TotalWords(parts[1..]) == 0;
    } else if |parts| > 1 {
      WordsOfJoin(parts[1..], sep);
      WordsAroundBlank(parts[0], sep, Join(parts[1..], sep));
    }
  }

  // ---------------------------------------------------------------------
  // re.split(r'[.!?]+', s)
  // ---------------------------------------------------------------------

  predicate IsSentenceEnd(c: char) {
    c == '.' || c == '!' || c == '?'
  }

  /** Drops the maximal leading run of sentence-ending punctuation. */
  function DropSentenceEnds(s: string): (r: string)
    ensures |r| <= |s| && r == s[|s| - |r|..]
    ensures forall i :: 0 <= i < |s| - |r| ==> IsSentenceEnd(s[i])
    ensures r == [] || !IsSentenceEnd(r[0])
    decreases |s|
  {
    if s != [] && IsSentenceEnd(s[0]) then
      var r := DropSentenceEnds(s[1..]);
      assert s[1..][|s| - 1 - |r|..] == s[|s| - |r|..];
      r
    else s
  }

  predicate NoSentenceEnd(s: string) {
    forall i :: 0 <= i < |s| ==> !IsSentenceEnd(s[i])
  }

  function SplitSentencesFrom(s: string, piece: string): (parts: seq<string>)
    requires NoSentenceEnd(piece)
    ensures |parts| >= 1
    ensures forall k :: 0 <= k < |parts| ==> NoSentenceEnd(parts[k])
    decreases |s|
  {
    if s == [] then [piece]
    else if IsSentenceEnd(s[0]) then [piece] + SplitSentencesFrom(DropSentenceEnds(s[1..]), [])
    else SplitSentencesFrom(s[1..], piece + [s[0]])
  }

  /** `re.split(r'[.!?]+', s)`: the pieces between maximal runs of `.`, `!` and `?`. */
  function SplitSentences(s: string): (parts: seq<string>)
    ensures |parts| >= 1
    ensures forall k :: 0 <= k < |parts| ==> NoSentenceEnd(parts[k])
  {
    SplitSentencesFrom(s, [])
  }

  /** The characters of `s` that are not `.`, `!` or `?`, in order. */
  function WithoutSentenceEnds(s: string): string
    decreases |s|
  {
    if s == [] then []
    else (if IsSentenceEnd(s[0]) then [] else [s[0]]) + WithoutSentenceEnds(s[1..])
  }

  /** `"".join(parts)` */
  function Concat(parts: seq<string>): string
    decreases |parts|
  {
    if parts == [] then [] else parts[0] + Concat(parts[1..])
  }

  /**
   * The number of maximal runs of `.`, `!` and `?` in `s`: the positions
   * holding one whose left neighbour (or `prevEnd` at the front) does not.
   */
  function RunStarts(s: string, prevEnd: bool): nat
    decreases |s|
  {
    if s == [] then 0
    else (if IsSentenceEnd(s[0]) && !prevEnd then 1 else 0) + RunStarts(s[1..], IsSentenceEnd(s[0]))
  }

  /** Dropping the run at the front takes no characters the filter keeps. */
  lemma {:induction false} DropKeepsKept(s: string)
    ensures WithoutSentenceEnds(DropSentenceEnds(s)) == WithoutSentenceEnds(s)
    decreases |s|
  {
    if s != [] && IsSentenceEnd(s[0]) {
      DropKeepsKept(s[1..]);
    }
  }

  /** A text right after a run start adds no run start of its own until a new run. */
  lemma {:induction false} DropKeepsRunStarts(s: string)
    ensures RunStarts(DropSentenceEnds(s), false) == RunStarts(s, true)
    decreases |s|
  {
    if s != [] && IsSentenceEnd(s[0]) {
      DropKeepsRunStarts(s[1..]);
    }
  }

  /** The scan's pieces, put back together, are the pending piece and the text without its `.!?`. */
  lemma {:induction false} ConcatSplitSentencesFrom(s: string, piece: string)
    requires NoSentenceEnd(piece)
    ensures Concat(SplitSentencesFrom(s, piece)) == piece + WithoutSentenceEnds(s)
    ensures |SplitSentencesFrom(s, piece)| == 1 + RunStarts(s, false)
    decreases |s|
  {
    if s == [] {
      assert Concat([piece]) == piece + Concat([]);
    } else if IsSentenceEnd(s[0]) {
      var rest := SplitSentencesFrom(DropSentenceEnds(s[1..]), []);
      ConcatSplitSentencesFrom(DropSentenceEnds(s[1..]), []);
      DropKeepsKept(s[1..]);
      DropKeepsRunStarts(s[1..]);
      assert ([piece] + rest)[1..] == rest;
      assert Concat([piece] + rest) == piece + Concat(rest);
    } else {
      ConcatSplitSentencesFrom(s[1..], piece + [s[0]]);
      assert WithoutSentenceEnds(s) == [s[0]] + WithoutSentenceEnds(s[1..]);
    }
  }

  /**
   * `re.split(r'[.!?]+', s)` loses exactly the punctuation it splits on: its
   * pieces, put back together, are `s` without its `.`, `!` and `?`, and
   * there is one piece more than there are maximal runs of them.
   */
  lemma SplitSentencesRoundTrip(s: string)
    ensures Concat(SplitSentences(s)) == WithoutSentenceEnds(s)
    ensures |SplitSentences(s)| == 1 + RunStarts(s, false)
  {
    ConcatSplitSentencesFrom(s, []);
  }

  /** `[p.strip() for p in parts if p.strip()]` */
  function StrippedNonBlank(parts: seq<string>): (r: seq<string>)
    ensures |r| <= |parts|
    ensures forall k :: 0 <= k < |r| ==> r[k] != []
    decreases |parts|
  {
    if parts == [] then []
    else if Strip(parts[0]) == [] then StrippedNonBlank(parts[1..])
    else [Strip(parts[0])] + StrippedNonBlank(parts[1..])
  }

  /** Dropping blank pieces and stripping the rest loses no words. */
  lemma {:induction false} TotalWordsStrippedNonBlank(parts: seq<string>)
    ensures TotalWords(StrippedNonBlank(parts)) == TotalWords(parts)
    decreases |parts|
  {
    if parts != [] {
      TotalWordsStrippedNonBlank(parts[1..]);
      WordsOfStrip(parts[0]);
      if Strip(parts[0]) == [] {
        assert Words(parts[0]) == Words([]);
      }
    }
  }

  // ---------------------------------------------------------------------
  // str.count(pat)
  // ---------------------------------------------------------------------

  /** Python's `s.count(pat)` for a non-empty `pat`: non-overlapping, left to right. */
  function CountOf(s: string, pat: string): nat
    requires pat != []
    decreases |s|
  {
    if |s| < |pat| then 0
    else if pat <= s then 1 + CountOf(s[|pat|..], pat)
    else CountOf(s[1..], pat)
  }

  /** Occurrences never overlap, so they fit into the text side by side. */
  lemma {:induction false} CountOfFits(s: string, pat: string)
    requires pat != []
    ensures CountOf(s, pat) * |pat| <= |s|
    decreases |s|
  {
    var n := |pat|;
    if |s| >= n {
      if pat <= s {
        var rest := s[n..];
        CountOfFits(rest, pat);
        var c := CountOf(rest, pat);
        assert CountOf(s, pat) == 1 + c;
        NextMultiple(c, n, |rest|);
      } else {
        CountOfFits(s[1..], pat);
        assert CountOf(s, pat) == CountOf(s[1..], pat);
      }
    }
  }

  lemma NextMultiple(c: nat, n: nat, m: nat)
    requires c * n <= m
    ensures (1 + c) * n <= n + m
  {
  }

  /** The count is positive exactly when the pattern occurs at all. */
  lemma {:induction false} CountOfPositiveIff(s: string, pat: string)
    requires pat != []
    ensures CountOf(s, pat) > 0 <==> Contains(s, pat)
    decreases |s|
  {
    if |s| < |pat| {
      if Contains(s, pat) {
        var i := ContainsWitness(s, pat);
      }
    } else if pat <= s {
    } else {
      CountOfPositiveIff(s[1..], pat);
    }
  }

  // ---------------------------------------------------------------------
  // str(n)
  // ---------------------------------------------------------------------

  function DigitChar(d: nat): (c: char)
    requires d < 10
    ensures '0' <= c <= '9'
  {
    ('0' as int + d) as char
  }

  /** Python's `str(n)` for a natural number. */
  function NatToString(n: nat): (s: string)
    ensures s != []
    ensures forall i :: 0 <= i < |s| ==> '0' <= s[i] <= '9'
  {
    if n < 10 then [DigitChar(n)] else NatToString(n / 10) + [DigitChar(n % 10)]
  }

  /** Python's `int(s)` for a string of decimal digits. */
  function ParseNat(s: string): nat
    requires forall i :: 0 <= i < |s| ==> '0' <= s[i] <= '9'
  {
    if s == [] then 0
    else ParseNat(s[..|s| - 1]) * 10 + (s[|s| - 1] as int - '0' as int)
  }

  /** Decimal rendering can be read back. */
  lemma {:induction false} ParseNatToString(n: nat)
    ensures ParseNat(NatToString(n)) == n
  {
    if n >= 10 {
      var s := NatToString(n);
      assert s[..|s| - 1] == NatToString(n / 10);
      ParseNatToString(n / 10);
    }
  }
}

=== FILE: word_match.dfy ===
/**
 * Whole-word keyword counting: the number of items
 * `re.findall(rf'\b{re.escape(keyword.lower())}\b', text.lower())` returns.
 * The pattern is a literal between two word boundaries, so a match at a
 * position is decided by comparing characters; `findall` scans from the left
 * and resumes after each match (one position further for an empty match).
 */
module WordMatch {
  import opened Text

  /** Python's `\w` on one character (ASCII letters, digits and underscore). */
  predicate IsWordChar(c: char) {
    'a' <= c <= 'z' || 'A' <= c <= 'Z' || '0' <= c <= '9' || c == '_'
  }

  predicate WordCharAt(t: string, p: int) {
    0 <= p < |t| && IsWordChar(t[p])
  }

  /** Python's `\b` at position `p`: a word character on exactly one side. */
  predicate IsBoundary(t: string, p: int) {
    WordCharAt(t, p - 1) != WordCharAt(t, p)
  }

  /** The characters of `t` from position `i` on spell `pat`. */
  predicate SameAt(t: string, pat: string, i: nat)
    decreases |pat|
  {
    i + |pat| <= |t| && (pat == [] || (t[i] == pat[0] && SameAt(t, pat[1..], i + 1)))
  }

  /** `SameAt` is the slice comparison `t[i:i + len(pat)] == pat`. */
  lemma {:induction false} SameAtIsSlice(t: string, pat: string, i: nat)
    ensures SameAt(t, pat, i) <==> i + |pat| <= |t| && t[i..i + |pat|] == pat
    decreases |pat|
  {
    if pat != [] && i + |pat| <= |t| {
      SameAtIsSlice(t, pat[1..], i + 1);
      assert t[i..i + |pat|] == [t[i]] + t[i + 1..i + 1 + |pat[1..]|];
      assert pat == [pat[0]] + pat[1..];
    }
  }

  /** `\b<pat>\b` matches at position `i` of `t`. */
  predicate MatchesAt(t: string, pat: string, i: nat) {
    SameAt(t, pat, i) && IsBoundary(t, i) && IsBoundary(t, i + |pat|)
  }

  /** How far `findall` moves on after a match of `pat`. */
  function Step(pat: string): nat {
    if pat == [] then 1 else |pat|
  }

  /** Start positions of the matches `findall` reports, scanning from `i`. */
  function MatchesFrom(t: string, pat: string, i: nat): (ps: seq<nat>)
    requires i <= |t| + 1
    ensures forall k :: 0 <= k < |ps| ==> i <= ps[k] && MatchesAt(t, pat, ps[k])
    ensures forall a, b :: 0 <= a < b < |ps| ==> ps[a] + Step(pat) <= ps[b]
    decreases |t| + 1 - i
  {
    if i > |t| then []
    else if MatchesAt(t, pat, i) then [i] + MatchesFrom(t, pat, i + Step(pat))
    else MatchesFrom(t, pat, i + 1)
  }

  /** `len(re.findall(rf'\b{re.escape(keyword.lower())}\b', text.lower()))` */
  function WholeWordCount(text: string, keyword: string): nat {
    |MatchesFrom(Lower(text), Lower(keyword), 0)|
  }

  /** A whole-word match is in particular a case-insensitive substring occurrence. */
  lemma WholeWordImpliesContains(text: string, keyword: string)
    requires WholeWordCount(text, keyword) > 0
    ensures Contains(Lower(text), Lower(keyword))
  {
    var ps := MatchesFrom(Lower(text), Lower(keyword), 0);
    SameAtIsSlice(Lower(text), Lower(keyword), ps[0]);
    ContainsAt(Lower(text), Lower(keyword), ps[0]);
  }

  /** The `n` characters at `p` stand alone: no word character touches them on either side. */
  predicate StandsAlone(t: string, p: nat, n: nat) {
    && p + n <= |t|
    && (p == 0 || !IsWordChar(t[p - 1]))
    && (p + n == |t| || !IsWordChar(t[p + n]))
  }

  /**
   * For a keyword that begins and ends with a word character, no counted
   * occurrence is glued to a neighbouring word character ("cat" is never
   * counted inside "category" or "bobcat").
   */
  lemma MatchesAreWholeWords(text: string, keyword: string, k: nat)
    requires var kw := Lower(keyword); kw != [] && IsWordChar(kw[0]) && IsWordChar(kw[|kw| - 1])
    requires k < WholeWordCount(text, keyword)
    ensures StandsAlone(Lower(text), MatchesFrom(Lower(text), Lower(keyword), 0)[k], |keyword|)
  {
    var t, kw := Lower(text), Lower(keyword);
    var ps := MatchesFrom(t, kw, 0);
    MatchIsWhole(t, kw, ps[k]);
  }

  /** A match of a pattern with word characters at both ends has no word character beside it. */
  lemma MatchIsWhole(t: string, kw: string, p: nat)
    requires kw != [] && IsWordChar(kw[0]) && IsWordChar(kw[|kw| - 1])
    requires MatchesAt(t, kw, p)
    ensures StandsAlone(t, p, |kw|)
  {
    var n := |kw|;
    SameAtIsSlice(t, kw, p);
    var w := t[p..p + n];
    assert w[0] == t[p] && w[n - 1] == t[p + n - 1];
    assert WordCharAt(t, p) && WordCharAt(t, p + n - 1);
  }

  /** The scan passes over a stretch of positions where nothing matches. */
  lemma {:induction false} SkipNonMatches(t: string, pat: string, i: nat, e: nat)
    requires i <= e <= |t| + 1
    requires forall j :: i <= j < e ==> !MatchesAt(t, pat, j)
    ensures MatchesFrom(t, pat, i) == MatchesFrom(t, pat, e)
    decreases e - i
  {
    if i < e {
      SkipNonMatches(t, pat, i + 1, e);
    }
  }

  /** A match at the scan position is reported, and the scan resumes after it. */
  lemma MatchesFromAtMatch(t: string, pat: string, i: nat)
    requires MatchesAt(t, pat, i)
    ensures MatchesFrom(t, pat, i) == [i] + MatchesFrom(t, pat, i + Step(pat))
  {
  }

  /** Without a match at the scan position, the scan moves on by one. */
  lemma MatchesFromNoMatch(t: string, pat: string, i: nat)
    requires i <= |t| && !MatchesAt(t, pat, i)
    ensures MatchesFrom(t, pat, i) == MatchesFrom(t, pat, i + 1)
  {
  }

  /** Position `j` lies in the stretch `[ps[k], ps[k] + step)` of the `k`-th reported match. */
  predicate Covers(ps: seq<nat>, step: nat, j: nat, k: nat) {
    k < |ps| && ps[k] <= j < ps[k] + step
  }

  /** A position inside the stretch of a new first match is covered by it. */
  lemma CoversHead(p: nat, rest: seq<nat>, step: nat, j: nat)
    requires p <= j < p + step
    ensures Covers([p] + rest, step, j, 0)
  {
  }

  /** Putting a match in front shifts every cover by one. */
  lemma CoversTail(p: nat, rest: seq<nat>, step: nat, j: nat, k: nat)
    requires Covers(rest, step, j, k)
    ensures Covers([p] + rest, step, j, k + 1)
  {
    assert ([p] + rest)[k + 1] == rest[k];
  }

  /**
   * Nothing is missed: a whole-word occurrence at or after `i` is reported,
   * or lies inside the stretch that a reported match consumed.
   */
  lemma {:induction false} MatchesFromComplete(t: string, pat: string, i: nat, j: nat) returns (k: nat)
    requires i <= j && MatchesAt(t, pat, j)
    ensures Covers(MatchesFrom(t, pat, i), Step(pat), j, k)
    decreases j - i
  {
    if MatchesAt(t, pat, i) {
      MatchesFromAtMatch(t, pat, i);
      if j < i + Step(pat) {
        k := 0;
        CoversHead(i, MatchesFrom(t, pat, i + Step(pat)), Step(pat), j);
      } else {
        var k' := MatchesFromComplete(t, pat, i + Step(pat), j);
        k := k' + 1;
        CoversTail(i, MatchesFrom(t, pat, i + Step(pat)), Step(pat), j, k');
      }
    } else {
      MatchesFromNoMatch(t, pat, i);
      k := MatchesFromComplete(t, pat, i + 1, j);
    }
  }

  /** The count is positive exactly when the keyword occurs somewhere as a whole word. */
  lemma WholeWordCountPositiveIff(text: string, keyword: string)
    ensures WholeWordCount(text, keyword) > 0 <==> exists j: nat :: MatchesAt(Lower(text), Lower(keyword), j)
  {
    var t, kw := Lower(text), Lower(keyword);
    if WholeWordCount(text, keyword) > 0 {
      assert MatchesAt(t, kw, MatchesFrom(t, kw, 0)[0]);
    }
    if j: nat :| MatchesAt(t, kw, j) {
      var _ := MatchesFromComplete(t, kw, 0, j);
    }
  }

  /** Example: "cat" occurs in "Category" but not as a whole word. */
  lemma CatInCategoryIsNotAWord()
    ensures Contains(Lower("Category"), Lower("cat"))
    ensures WholeWordCount("Category", "cat") == 0
  {
    var t, kw := Lower("Category"), Lower("cat");
    assert t == "category";
    assert kw == "cat";
    ContainsLowerOf([], "cat", "egory");
    assert !IsBoundary(t, 3);
    assert forall i :: 1 <= i < |t| ==> t[i] != 'c';
    assert forall i :: 1 <= i <= |t| ==> !SameAt(t, kw, i);
    SkipNonMatches(t, kw, 0, |t| + 1);
  }

  /** Example: matching ignores case and punctuation around the word. */
  lemma CountsIgnoreCase()
    ensures WholeWordCount("SEO, and seo.", "Seo") == 2
  {
    var t, kw := Lower("SEO, and seo."), Lower("Seo");
    assert t == "seo, and seo.";
    assert kw == "seo";
    assert forall i :: 3 <= i < |t| && i != 9 ==> t[i] != 's';
    assert forall i :: 3 <= i <= |t| && i != 9 ==> !SameAt(t, kw, i);
    SameAtIsSlice(t, kw, 0);
    SameAtIsSlice(t, kw, 9);
    assert t[0..3] == kw && t[9..12] == kw;
    assert MatchesAt(t, kw, 0) && MatchesAt(t, kw, 9);
    SkipNonMatches(t, kw, 3, 9);
    SkipNonMatches(t, kw, 12, |t| + 1);
    assert MatchesFrom(t, kw, 0) == [0] + MatchesFrom(t, kw, 3);
    assert MatchesFrom(t, kw, 9) == [9] + MatchesFrom(t, kw, 12);
  }
}
